=== FILE: README.md ===
# Recycling-depot lookup service: a Dafny model of its core

The service answers "where can I recycle this near me?" for New Brunswick.
A request names a place (`city`: a town name or a postal code). The service
resolves it to a coordinate, with the OpenStreetMap geocoder first and a
table of postal-code prefixes as the fallback. It then lists oil-recycling
depots or paint merchants in a JSON envelope.

The model covers the request logic, with the network, HTML and SQL replaced
by abstract inputs and an immutable store:

- **Location resolution** (`Resolver`). `getLatLonForCityOrPostalCode` is
  modelled as a decision over the `city` parameter, the geocoder's reply and
  the postal table. `GetPaint` is modelled as a dispatch on `action`.
- **Listing normalisation** (`Scrape`, over `GoStrings`). The store name, the
  products string and the geocoding query are derived from one scraped oil
  listing. `GoStrings` models Go's `strings.Split`, `Join`, `ReplaceAll`,
  `Index`, `TrimSpace` and `ToLower`, including empty fields. `Scrape` also
  models the "accumulate with a leading space, then trim" loop.
- **The oil listing loop** (`Oil`). Each listing first tries the depot cache.
  On a miss it geocodes the address and saves the depot. The loop emits one
  record per listing, in page order, numbered from 1. Every outside call is
  recorded as an `Effect`, so "nothing is geocoded or saved on a hit" can be
  stated.
- **The store** (`Database`). The `postal`, `depots` and `paint` tables are
  sequences of rows with auto-increment counters. Each store call carries a
  `Call` outcome: it answers, or it runs into its 3-second deadline.

Modules: `Wrappers` (Option and Result), `GoStrings`, `Strconv` (the
decimal text of an integer), `Models` (the records), `Database`, `Scrape`,
`Resolver` and `Oil`.

## Model

| member | source | states |
|---|---|---|
| GoStrings.ToLowerEqualIff | database.go:16-17 | ToLower: two texts lower-case to the same text exactly when they have the same length and, position by position, the same character or the same ASCII letter in the other case |
| GoStrings.TrimLeft | handlers.go:231 | the result is a suffix with only whitespace in front of it and no leading whitespace |
| GoStrings.TrimRight | handlers.go:231 | the result is a prefix with only whitespace after it and no trailing whitespace |
| GoStrings.TrimSpace | handlers.go:231 | the result is a slice of the input with only whitespace around it, and it neither starts nor ends with whitespace |
| GoStrings.TrimBothEnds | handlers.go:231 | trimming the left and then the right leaves a middle slice with only whitespace on both sides |
| GoStrings.TrimSpaceAfterSpace | handlers.go:203-206 | a leading space never survives trimming |
| GoStrings.IndexOf | handlers.go:202 | the result is -1 or a position where the separator occurs, and no occurrence comes before it |
| GoStrings.OccursLater | handlers.go:202 | when the text does not start with the separator, each occurrence shifts down by one in the rest of the text |
| GoStrings.OccursShifted | handlers.go:202 | an occurrence in the rest of the text is one position later in the whole text |
| GoStrings.Split | handlers.go:202 | a split always yields at least one field |
| GoStrings.JoinSplit | handlers.go:202-206 | Join and Split: re-joining the fields of a split with the same separator gives back the text |
| GoStrings.JoinCons | handlers.go:218 | joining a head in front of a non-empty list adds exactly one separator between them |
| GoStrings.SplitPartsAvoidSep | handlers.go:222 | no field of a split contains the separator |
| GoStrings.HeadAvoidsSep | handlers.go:222 | the text in front of the first separator holds no separator |
| GoStrings.CleanPartAvoidsSep | handlers.go:218 | a part whose first separator is the one right after it contains no separator |
| GoStrings.SplitJoin | handlers.go:218 | Split and Join: splitting a join gives back the parts, provided each part separates cleanly from the separator after it |
| GoStrings.FirstSeparatorAfter | handlers.go:218 | after a part that separates cleanly, the first separator is the one right behind the part, whatever follows |
| GoStrings.NoSeparatorInside | handlers.go:218 | no separator starts inside a part that separates cleanly, whatever follows the separator after it |
| GoStrings.SplitKeepsEmptyField | handlers.go:222 | two adjacent separators yield an empty field between them, and "" splits into one empty field |
| GoStrings.ReplaceAllIsJoinOfSplit | handlers.go:221 | ReplaceAll: replacing every occurrence, left to right, equals splitting on the pattern and joining with the replacement |
| GoStrings.OccursInPrefix | handlers.go:222 | an occurrence that fits inside a prefix is an occurrence in the whole text, and the converse also holds |
| GoStrings.JoinSnoc | handlers.go:224-226 | appending a part to a non-empty list appends one separator and the part to the join |
| Strconv.FormatNat | database.go:151 | the decimal text of a natural number has at least one digit, only digits, and no leading zero unless it is "0" |
| Strconv.FormatNatRoundTrip | database.go:151 | reading the digits of a natural number back gives the number |
| Strconv.FormatInt | handlers.go:20 | the text of an integer is its magnitude's digits with no leading zero, behind a minus sign when it is negative, and those digits read back as the magnitude |
| Strconv.FormatIntInjective | database.go:151 | two integers with the same text are equal |
| Models.ProductListEmpty | handlers.go:216-219 | ProductList: a list of non-empty products renders as "" exactly when it is empty |
| Models.JoinStartsWithFirst | handlers.go:218 | a join is at least as long as its first part |
| Models.ProductSeparatesCleanly | database.go:92-95 | a product without ", " in it separates cleanly from the ", " after it |
| Models.NoOccurrenceInProduct | database.go:92-95 | no ", " starts inside a product without one, not even across the separator that follows it |
| Models.ProductListRoundTrip | database.go:92-95 | ProductList: splitting a non-empty product list on ", " gives back the products, when none contains ", " |
| Database.FindPostal | database.go:16-17 | the first postal row whose prefix equals the argument up to case, or none when no row matches |
| Database.GetLatLonForPostalCode | database.go:11-29 | success exactly when the call answers and some prefix matches up to case; the value is the first matching row's coordinate; otherwise a timeout or no-rows error |
| Database.FindDepot | database.go:38-39 | the first depot row whose name and address both equal the arguments up to case, with no trimming |
| Database.MatchesUpToCase | database.go:16-39 | a postal row matches a code, and a depot row matches a name and address, exactly when the texts are equal up to the case of their letters |
| Database.GetLatLonForOilDepot | database.go:32-52 | success exactly when the call answers and a row matches both name and address up to case; the value is the first match's id and coordinate; otherwise the error kind |
| Database.SaveDepot | database.go:55-86 | an answered insert appends the depot as one new row under the next id and leaves every earlier row and every other table alone; the reported id is 0 when the id query fails; a failed insert stores nothing |
| Database.SaveDepotKeepsValid | database.go:59-85 | saving keeps ids positive, ascending and below the counter, and an id read back is one no earlier row has |
| Database.SaveThenLookup | database.go:38-85 | after saving an identity not stored before, a lookup in any letter case returns the new row's id and coordinate |
| Database.FindDepotStable | database.go:38 | appending rows keeps the first match of an identity that is already present |
| Database.DuplicateSaveIsShadowed | database.go:59-72 | saving an identity already stored still adds a row, yet lookups keep returning the older row |
| Database.InsertPaintDepot | database.go:88-129 | an answered insert appends one paint row holding the merchant's fields and its products joined by ", ", or "" when it has none; other tables are unchanged; validity is kept |
| Database.ScanFrom | database.go:148-166 | from a position on, the rows read are exactly the stored rows from there, or the scan fails with a bad row exactly when some row there is unreadable |
| Database.MerchantOfRow | database.go:149-161 | MerchantOf: the record shows its row's selected columns and no oil fields; its text `ID` reads back as the row's non-negative id, and two records share an `ID` only when their rows share an id |
| Database.GetPaintMerchants | database.go:132-173 | success exactly when the query answers, every row scans and the cursor ends cleanly; a success lists every row in storage order as its merchant record, and a failure lists nothing |
| Database.InsertThenListed | database.go:88-173 | a merchant inserted successfully comes last in the next clean listing, after the earlier rows, with its fields, its products joined by ", " and its new id as decimal text |
| Resolver.PostalFallback | handlers.go:137-150 | the fallback finds a coordinate exactly when the postal call answers and the first three characters match a prefix; a shorter term finds nothing |
| Resolver.GetLatLonForCityOrPostalCode | handlers.go:94-152 | a missing or empty term, or a malformed geocoder body, gives NotFound; a geocoder hit gives its first result; a readable but empty reply falls back to the first matching postal row for the term's first three characters |
| Resolver.PostalFallbackAsWritten | handlers.go:139 | as written, the fallback panics exactly when the term is shorter than three characters |
| Resolver.ShortTermPanicsAsWritten | handlers.go:137-140 | the two-character term "E1" with an empty geocoder reply reaches the panicking slice, while the corrected resolution answers NotFound |
| Resolver.GeocoderHitIgnoresPostalTable | handlers.go:129-137 | when the geocoder places the term, neither the postal table nor the health of its call changes the answer |
| Resolver.MalformedReplyIgnoresPostalTable | handlers.go:122-127 | an unparsable geocoder body gives NotFound whatever the postal table holds |
| Resolver.ScenarioPostalPrefix | handlers.go:137-150 | "E1A" with an empty geocoder reply resolves through the stored prefix "e1a" |
| Resolver.GetPaint | handlers.go:332-376 | a missing or empty action gives the not-found envelope; "all" lists every paint merchant or fails as a whole; any other action passes on the nearby query's outcome; a success carries the resolved coordinate |
| Scrape.AppendEachJoins | handlers.go:203-206 | AppendEach: the accumulation loop leaves the tokens joined by single spaces, behind one leading space |
| Scrape.StoreNameWithoutSpace | handlers.go:201-206 | a label without a space has no name after its number |
| Scrape.SplitTailAfterFirst | handlers.go:202-203 | the tokens after the first are the split of the text after the first space |
| Scrape.AppendEachOfSplit | handlers.go:202-206 | accumulating the tokens of a text gives the text behind one space |
| Scrape.TokensOfText | handlers.go:202-206 | the tokens of a text join back to it, and the loop accumulates them to the text behind one space |
| Scrape.AccumulatedAfterSpace | handlers.go:201-206 | what the loop accumulates from a label with a space is the text after that space, behind one space |
| Scrape.TrimmedBehindSpace | handlers.go:231 | trimming what was accumulated behind a space gives the trimmed text itself |
| Scrape.StoreNameAfterSpace | handlers.go:201-206 | the store name is the trimmed text after the label's first space |
| Scrape.StoreNameDropsFirstToken | handlers.go:201-206 | StoreName: the store name is the label without its first token, re-joined by single spaces and trimmed; a one-token label gives "" |
| Scrape.NonEmptyTitles | handlers.go:208-214 | the kept titles are exactly the non-empty titles, each as many times as it occurs among the titles |
| Scrape.NonEmptyTitlesAppend | handlers.go:209-214 | keeping non-empty titles commutes with concatenation, so document order is kept |
| Scrape.ProductsReadBack | handlers.go:208-219 | Products: the products string is "" exactly when no title is non-empty; otherwise splitting it on ", " gives back the non-empty titles in order, when none contains ", " |
| Scrape.ProductsEmptyExactly | handlers.go:208-219 | Products: the products string is "" exactly when every title is "" |
| Scrape.ProductsSplitBack | handlers.go:208-219 | Products: when no title contains ", " and some title is non-empty, splitting the products string on ", " gives back the non-empty titles in order |
| Scrape.TrimmedAppendEach | handlers.go:223-226 | trimming the accumulated tokens equals trimming their single-space join |
| Scrape.LastTwoTokens | handlers.go:221-226 | a text of more than two tokens is its front tokens followed by the last two, separated by spaces |
| Scrape.LastTwoTokensSpaceFree | handlers.go:221-226 | a text of more than two tokens is its front tokens and then its last two, which hold no space |
| Scrape.AddressEndsInTwoTokens | handlers.go:221-222 | the address text the tokens come from is its front tokens and then its last two, which hold no space |
| Scrape.QueryOfFrontTokens | handlers.go:223-226 | an address of more than two tokens is queried by its front tokens, joined by single spaces and trimmed |
| Scrape.QueryOfFewTokens | handlers.go:223-226 | an address of at most two tokens has an empty query |
| Scrape.QueryAddressDropsLastTwo | handlers.go:221-226 | QueryAddress and AddressTokens: the query is the trimmed address text in front of its last two tokens, the text being those tokens re-joined by spaces; an address of at most two tokens gives "" |
| Scrape.DeriveFields | handlers.go:199-226 | Derive: the name is the label without its first token, the address and hours are trimmed, the products are "" exactly when no title is non-empty, and the query is the address in front of its last two tokens |
| Oil.VisitListing | handlers.go:228-286 | a hit keeps the store and the cached id and coordinate, and makes only the lookup; otherwise the listing is geocoded and exactly one save is issued with its trimmed fields and whatever coordinate was found, and the emitted id is the save's result, 0 when unknown; the store only gains depot rows |
| Oil.Loop | handlers.go:199 | the loop settles on one outcome and one call list per listing visited |
| Oil.LoopPrefix | handlers.go:199 | visiting more listings never changes what earlier listings settled on or called |
| Oil.LoopCalls | handlers.go:199 | when every turn makes a listing's calls, every turn of the loop does |
| Oil.LoopFrame | handlers.go:199 | when every turn only appends depot rows, the whole loop only appends depot rows |
| Oil.VisitListingShape | handlers.go:228-273 | one turn makes its lookup, then either nothing more or one geocode and one save, and it only appends depot rows |
| Oil.VisitUpTo | handlers.go:199-287 | the first `n` listings give `n` outcomes and `n` call lists |
| Oil.VisitUpToCalls | handlers.go:228-273 | each listing makes its lookup, then either nothing more or one geocode and one save; only depot rows are appended |
| Oil.VisitAll | handlers.go:199-287 | over the whole page, each listing makes its own calls and the store only gains depot rows |
| Oil.CacheStable | handlers.go:231 | appending rows never changes a cache hit |
| Oil.SameIdentitySameAnswer | handlers.go:231 | two listings whose name and address agree up to case get the same cache answer |
| Oil.HealthyPassCaches | handlers.go:228-273 | when every call answers, each visited listing ends cached under the id and coordinate the pass settled on |
| Oil.VisitKeepsCached | handlers.go:228-273 | a healthy visit keeps earlier listings cached as they were and leaves its own listing cached |
| Oil.CachedSnoc | handlers.go:228-273 | one more cached listing extends what is known to be cached |
| Oil.StillCached | handlers.go:269 | appending rows keeps every cached listing cached as it was |
| Oil.VisitCachesItself | handlers.go:231-273 | after a healthy visit the listing's own identity is cached under what the visit settled on |
| Oil.SavedDepotRecordsAgain | handlers.go:261-284 | Record and ToSave: the depot saved for an uncached listing holds the store, address, hours, products and coordinate its record shows, and once saved a later hit on the listing emits the same record under the new row's id |
| Oil.CachedPassHits | handlers.go:231-233 | a pass over listings that are all cached hits on every one: the store is unchanged, the cached values are kept and only lookups are made |
| Oil.CachedListingHits | handlers.go:231-233 | a cached listing whose lookup answers hits and makes only the lookup |
| Oil.HitsExtend | handlers.go:199 | a pass that hit so far and hits on the next listing still hit everywhere |
| Oil.PageRerunHitsCache | handlers.go:228-286 | running the same page again on the store a healthy pass left behind geocodes and saves nothing, keeps the store and gives every listing the same id and coordinate |
| Oil.LastRepeatHitsCache | handlers.go:228-273 | a repeated identity that is the last listing visited hits the row its earlier occurrence left |
| Oil.RepeatHitCarries | handlers.go:199 | a repeat hit seen by a shorter pass is seen by any longer pass that agrees with it so far |
| Oil.RepeatedListingHitsCache | handlers.go:228-273 | in a healthy pass a listing that repeats an earlier identity (up to case) is neither geocoded nor saved again and gets the earlier listing's id and coordinate |
| Oil.VisitListingKeepsValid | handlers.go:269 | one visit keeps ids positive, ascending and below the counter |
| Oil.VisitUpToKeepsValid | handlers.go:199-287 | the loop keeps ids positive, ascending and below the counter |
| Oil.GetOil | handlers.go:172-299 | an unresolved place gives the not-found envelope and touches nothing; otherwise the envelope carries the resolved coordinate and one record per listing in page order, numbered 1..N and built from that listing's derived fields, each listing makes its own calls, and the store, the calls and every record's id and coordinate are those of the pass over the page's listings |
| Oil.GetOilRerunHitsCache | handlers.go:172-299 | a second request for the same place and page, on the store a healthy first request left behind, answers the same envelope with the same ids and coordinates, makes only the depot lookups and leaves the store as it is |
| Oil.ResolutionReadsPostalOnly | handlers.go:95-151 | resolving a place gives the same answer on any two stores with the same postal table |
| Oil.GetOilKeepsValid | handlers.go:228-286 | a request leaves a well-formed store well formed |

## Left out

- Network access is left out: the geocoder, the depot listing page and their bodies. The geocoder's reply is an input (`GeoReply`, or `GeoBody` in the loop). A listing is its already-extracted texts (`RawListing`).
- HTML selection (goquery) and JSON decoding and encoding are left out; they are library code.
- The `log.Fatal` exits when the listing page cannot be fetched or parsed are left out, because they end the process. So are the nil-response dereferences that follow a failed `http.Get`.
- The postal fallback on a term shorter than three characters: as written, the handler's `search[0:3]` panics. The model resolves such a term to NotFound, and "## Findings" records the difference.
- Resolver.PostalFallbackAsWritten: strings are sequences of characters here, while Go's `len(search)` and `search[0:3]` count bytes of UTF-8. The panic boundary agrees with Go only for ASCII terms. For example "Ça" is two characters but three bytes, so Go does not panic on it.
- Resolver.PostalFallback: takes the first three characters, where Go takes the first three bytes. The two agree on ASCII terms, which every postal prefix is.
- The 3-second context timeouts are modelled only as a `Call` outcome; there is no clock.
- Floating point is left out. `InsertPaintDepot` receives the `%f` renderings of a merchant's coordinate as text.
- `GetPaintMerchantsForLatLon` is not part of this model. Its outcome is the `near` input of `GetPaint`.
- Concurrency is left out. Each request runs alone, so the race between two requests inserting the same depot is not modelled.
- Case and whitespace are ASCII only: `ToLower` folds `A`-`Z`, and `TrimSpace` removes space and `\t`..`\r`. Unicode folding and SQL collation are not modelled.
- The row order of an unordered SQL `select` is taken as storage order.
- Scan failures are modelled only for paint rows, as the set of unreadable rows. The model does not say what causes them (NULL columns, type mismatches).
- Database.GetLatLonForPostalCode: a matching postal row always scans here. In the source a row that fails to scan gives an error, so the fallback answers NotFound.
- Database.FindDepot: a matching depot row always scans here. In the source a row that fails to scan makes the lookup fail, so the loop treats the listing as a miss. The model does not cover that case, nor a `Scan` that fills `lat` and then fails.
- `strings.Split` and `ReplaceAll` with an empty separator are not modelled; every separator in the handlers is non-empty.
- The `NotFound` envelope writer, the CORS headers, the electronics pass-through handler, `main.go` and `routes.go` are left out. They hold plumbing, not logic.
- Resolver.GetLatLonForCityOrPostalCode: does not model the handler's `err` result, which its callers discard.
- Oil.GeocodedCoordinate: ignores whether the geocoder's body was read completely, because the loop only logs that error and parses what it got.
- Database.GetLatLonForOilDepot: a failure carries no id or coordinate. The source returns id 0 and whatever text the scan left, and the loop replaces the id with the save's result. It replaces the coordinate only when the geocoder's body parses to a non-empty list. Otherwise the lookup's leftover text is emitted and saved. The model uses the empty coordinate there, which is what a timeout or a missing row leaves; a row that scans only partly is not modelled.
- Database.SaveDepot: the id is read by a `SELECT LAST_INSERT_ID()` that goes through the connection pool (database.go:79-83), not the insert's own connection. MySQL keeps that value per connection, so on another connection Go can read 0 or another row's id without an error. The model takes the query to run on the insert's connection. It answers the new row's id, or 0 when the query fails. The lemmas that rely on it are Database.SaveThenLookup, Oil.HealthyPassCaches, Oil.PageRerunHitsCache and Oil.GetOilRerunHitsCache.
- Database.InsertPaintDepot: its id query has the same pooled-connection gap (database.go:121-125). The model assumes the same thing as for SaveDepot. Only its reported id depends on that. Database.InsertThenListed reads the row's own id back from the table, so it does not depend on it.

## Findings

| source | as written | input that shows it | evidently intended | confidence | as-written member | corrected member |
|---|---|---|---|---|---|---|
| handlers.go:139 | the postal fallback slices `search[0:3]` without checking the term's length | for an ASCII term such as `city=E1`, with a geocoder reply that is an empty list: a run-time panic instead of a reply | a term too short to hold a postal prefix answers NotFound, like any other postal miss | not executed | Resolver.ShortTermPanicsAsWritten | Resolver.PostalFallback |

=== FILE: database.dfy ===
/**
 The MySQL store of database.go as immutable tables: the seeded `postal`
 prefix table, the `depots` cache of oil depots and the `paint` table, each
 with an auto-increment counter. Every call carries a `Call` saying whether
 the server answered within the call's deadline.
 */
module Database {
  import opened Wrappers
  import opened GoStrings
  import opened Models
  import opened Strconv

  /** Whether one store call answers, or runs into its context deadline. */
  datatype Call = Answers | TimesOut

  datatype StoreError =
    | NoRows   // the query matched no row
    | Timeout  // the call ran into its deadline
    | BadRow   // a row could not be scanned into the reply record

  /** A row of the `postal` table: a postal-code prefix and its coordinate. */
  datatype PostalRow = PostalRow(prefix: string, coord: Coordinate)

  /** A row of the `paint` table. */
  datatype PaintRow = PaintRow(
    id: int,
    store: string,
    lat: string,
    lon: string,
    line1: string,
    line2: string,
    city: string,
    province: string,
    phone: string,
    hours: string,
    products: string)

  /** The whole store, rows in storage order. */
  datatype Db = Db(
    postal: seq<PostalRow>,
    depots: seq<Depot>,
    paint: seq<PaintRow>,
    nextDepotId: int,
    nextPaintId: int)

  /** Auto-increment ids: positive, ascending in storage order, below the table's counter. */
  predicate Valid(db: Db) {
    && 1 <= db.nextDepotId && 1 <= db.nextPaintId
    && (forall i :: 0 <= i < |db.depots| ==> 1 <= db.depots[i].id < db.nextDepotId)
    && (forall i, j :: 0 <= i < j < |db.depots| ==> db.depots[i].id < db.depots[j].id)
    && (forall i :: 0 <= i < |db.paint| ==> 1 <= db.paint[i].id < db.nextPaintId)
    && (forall i, j :: 0 <= i < j < |db.paint| ==> db.paint[i].id < db.paint[j].id)
  }

  /** `lower(prefix) = lower(pc)`. */
  predicate PrefixMatches(row: PostalRow, pc: string) {
    ToLower(row.prefix) == ToLower(pc)
  }

  /** The position of the first postal row matching `pc`. */
  function FindPostal(rows: seq<PostalRow>, pc: string): (r: Option<nat>)
    ensures r.Some? ==> r.value < |rows| && PrefixMatches(rows[r.value], pc)
    ensures r.Some? ==> forall j :: 0 <= j < r.value ==> !PrefixMatches(rows[j], pc)
    ensures r.None? ==> forall j :: 0 <= j < |rows| ==> !PrefixMatches(rows[j], pc)
    decreases |rows|
  {
    if |rows| == 0 then None
    else if PrefixMatches(rows[0], pc) then Some(0)
    else match FindPostal(rows[1..], pc)
      case None => None
      case Some(k) => Some(k + 1)
  }

  /** `GetLatLonForPostalCode`: the coordinate of the first row whose prefix equals `pc` up to case. */
  function GetLatLonForPostalCode(db: Db, pc: string, call: Call): (r: Result<Coordinate, StoreError>)
    ensures r.Success? <==> (call == Answers && exists i :: 0 <= i < |db.postal| && PrefixMatches(db.postal[i], pc))
    ensures r.Success? ==> (exists i :: 0 <= i < |db.postal| && PrefixMatches(db.postal[i], pc)
                              && (forall j :: 0 <= j < i ==> !PrefixMatches(db.postal[j], pc))
                              && r.value == db.postal[i].coord)
    ensures r.Failure? ==> r.error == (if call == TimesOut then Timeout else NoRows)
  {
    if call == TimesOut then Failure(Timeout)
    else match FindPostal(db.postal, pc)
      case None => Failure(NoRows)
      case Some(i) =>
        assert call == Answers;
        assert PrefixMatches(db.postal[i], pc);
        assert exists i :: 0 <= i < |db.postal| && PrefixMatches(db.postal[i], pc);
        Success(db.postal[i].coord)
  }

  /** `lower(depot_name) = lower(name) and lower(physical_address) = lower(address)`, untrimmed. */
  predicate SameIdentity(row: Depot, name: string, address: string) {
    ToLower(row.depotName) == ToLower(name) && ToLower(row.address) == ToLower(address)
  }

  /** A row matches a postal code, or a depot identity, exactly when the texts are equal up to the case of their letters. */
  lemma MatchesUpToCase(postalRow: PostalRow, pc: string, row: Depot, name: string, address: string)
    ensures PrefixMatches(postalRow, pc) <==> EqualUpToCase(postalRow.prefix, pc)
    ensures SameIdentity(row, name, address) <==> EqualUpToCase(row.depotName, name) && EqualUpToCase(row.address, address)
  {
  }

  /** The position of the first depot row with the identity (`name`, `address`). */
  function FindDepot(rows: seq<Depot>, name: string, address: string): (r: Option<nat>)
    ensures r.Some? ==> r.value < |rows| && SameIdentity(rows[r.value], name, address)
    ensures r.Some? ==> forall j :: 0 <= j < r.value ==> !SameIdentity(rows[j], name, address)
    ensures r.None? ==> forall j :: 0 <= j < |rows| ==> !SameIdentity(rows[j], name, address)
    decreases |rows|
  {
    if |rows| == 0 then None
    else if SameIdentity(rows[0], name, address) then Some(0)
    else match FindDepot(rows[1..], name, address)
      case None => None
      case Some(k) => Some(k + 1)
  }

  /** The id and coordinate the depot cache holds for one depot. */
  datatype CachedDepot = CachedDepot(id: int, coord: Coordinate)

  /** `GetLatLonForOilDepot`: the id and coordinate of the first row with the given identity. */
  function GetLatLonForOilDepot(db: Db, name: string, address: string, call: Call): (r: Result<CachedDepot, StoreError>)
    ensures r.Success? <==> (call == Answers && exists i :: 0 <= i < |db.depots| && SameIdentity(db.depots[i], name, address))
    ensures r.Success? ==> (exists i :: 0 <= i < |db.depots| && SameIdentity(db.depots[i], name, address)
                              && (forall j :: 0 <= j < i ==> !SameIdentity(db.depots[j], name, address))
                              && r.value == CachedDepot(db.depots[i].id, Coordinate(db.depots[i].lat, db.depots[i].lon)))
    ensures r.Failure? ==> r.error == (if call == TimesOut then Timeout else NoRows)
  {
    if call == TimesOut then Failure(Timeout)
    else match FindDepot(db.depots, name, address)
      case None => Failure(NoRows)
      case Some(i) =>
        var row := db.depots[i];
        assert call == Answers;
        assert SameIdentity(db.depots[i], name, address);
        assert exists i :: 0 <= i < |db.depots| && SameIdentity(db.depots[i], name, address);
        Success(CachedDepot(row.id, Coordinate(row.lat, row.lon)))
  }

  /** The store after an insert, and the id (or error) the insert reported. */
  datatype Saved = Saved(db: Db, result: Result<int, StoreError>)

  /**
   `SaveDepot`: unconditionally appends `d` (its own id ignored) as a new row.
   `insert` is the INSERT call, `lastId` the `SELECT LAST_INSERT_ID()` whose
   failure is ignored and reads as id 0.
   */
  function SaveDepot(db: Db, d: Depot, insert: Call, lastId: Call): (r: Saved)
    ensures r.result.Success? <==> insert == Answers
    ensures r.db.postal == db.postal && r.db.paint == db.paint && r.db.nextPaintId == db.nextPaintId
    ensures |r.db.depots| == |db.depots| + (if r.result.Success? then 1 else 0)
    ensures r.db.depots[..|db.depots|] == db.depots
    ensures r.result.Failure? ==> r.db == db && r.result.error == Timeout
    ensures r.result.Success? ==> r.db.depots[|db.depots|] == d.(id := db.nextDepotId)
    ensures r.result.Success? ==> r.result.value == (if lastId == Answers then r.db.depots[|db.depots|].id else 0)
  {
    if insert == TimesOut then Saved(db, Failure(Timeout))
    else
      var id := db.nextDepotId;
      var db' := db.(depots := db.depots + [d.(id := id)], nextDepotId := id + 1);
      Saved(db', Success(if lastId == Answers then id else 0))
  }

  /** Saving keeps the store well formed, and an id read back is one no earlier row has. */
  lemma SaveDepotKeepsValid(db: Db, d: Depot, insert: Call, lastId: Call)
    requires Valid(db)
    ensures var r := SaveDepot(db, d, insert, lastId);
      && Valid(r.db)
      && (r.result.Success? && lastId == Answers ==> forall i :: 0 <= i < |db.depots| ==> db.depots[i].id != r.result.value)
  {
  }

  /** After saving a depot whose identity was not yet cached, looking it up in any letter case finds the new row. */
  lemma SaveThenLookup(db: Db, d: Depot, name: string, address: string)
    requires forall i :: 0 <= i < |db.depots| ==> !SameIdentity(db.depots[i], d.depotName, d.address)
    requires ToLower(name) == ToLower(d.depotName) && ToLower(address) == ToLower(d.address)
    ensures var s := SaveDepot(db, d, Answers, Answers);
      && s.result == Success(db.nextDepotId)
      && GetLatLonForOilDepot(s.db, name, address, Answers) == Success(CachedDepot(db.nextDepotId, Coordinate(d.lat, d.lon)))
  {
    var s := SaveDepot(db, d, Answers, Answers);
    assert s.db.depots == db.depots + [d.(id := db.nextDepotId)];
    assert FindDepot(s.db.depots, name, address) == Some(|db.depots|);
  }

  /** Extending a table keeps the first match of an identity that was already present. */
  lemma FindDepotStable(rows: seq<Depot>, more: seq<Depot>, name: string, address: string)
    requires FindDepot(rows, name, address).Some?
    ensures FindDepot(rows + more, name, address) == FindDepot(rows, name, address)
  {
    var i := FindDepot(rows, name, address).value;
    var r := FindDepot(rows + more, name, address);
    assert (rows + more)[i] == rows[i];
    assert forall j :: 0 <= j < i ==> (rows + more)[j] == rows[j];
  }

  /**
   Saving an identity that is already cached still adds a row (there is no
   uniqueness check), but lookups keep answering with the older row.
   */
  lemma DuplicateSaveIsShadowed(db: Db, d: Depot, lastId: Call)
    requires exists i :: 0 <= i < |db.depots| && SameIdentity(db.depots[i], d.depotName, d.address)
    ensures var s := SaveDepot(db, d, Answers, lastId);
      && |s.db.depots| == |db.depots| + 1
      && SameIdentity(s.db.depots[|db.depots|], d.depotName, d.address)
      && GetLatLonForOilDepot(s.db, d.depotName, d.address, Answers) == GetLatLonForOilDepot(db, d.depotName, d.address, Answers)
  {
    var s := SaveDepot(db, d, Answers, lastId);
    FindDepotStable(db.depots, [d.(id := db.nextDepotId)], d.depotName, d.address);
    assert s.db.depots == db.depots + [d.(id := db.nextDepotId)];
  }

  /** The address part of a paint merchant's record. */
  datatype PaintProvince = PaintProvince(labelText: string, value: string)  // `Label` and `Value`
  datatype PaintAddress = PaintAddress(line1: string, line2: string, city: string, province: PaintProvince)

  /**
   A paint merchant as imported (`PaintData`). `latText` and `lonText` are
   the `%f` renderings of its floating-point coordinate.
   */
  datatype PaintData = PaintData(
    id: int,
    address: PaintAddress,
    products: seq<string>,
    phone: string,
    latText: string,
    lonText: string,
    hours: string,
    depot: string)

  /** `InsertPaintDepot`: appends the merchant as a new `paint` row, its products joined by ", ". */
  function InsertPaintDepot(db: Db, p: PaintData, insert: Call, lastId: Call): (r: Saved)
    ensures r.result.Success? <==> insert == Answers
    ensures r.db.postal == db.postal && r.db.depots == db.depots && r.db.nextDepotId == db.nextDepotId
    ensures |r.db.paint| == |db.paint| + (if r.result.Success? then 1 else 0)
    ensures r.db.paint[..|db.paint|] == db.paint
    ensures r.result.Failure? ==> r.db == db && r.result.error == Timeout
    ensures r.result.Success? ==> var row := r.db.paint[|db.paint|];
      && row.id == db.nextPaintId
      && row.store == p.depot && row.lat == p.latText && row.lon == p.lonText
      && row.line1 == p.address.line1 && row.line2 == p.address.line2 && row.city == p.address.city
      && row.province == p.address.province.value && row.phone == p.phone && row.hours == p.hours
      && (|p.products| == 0 ==> row.products == "")
      && (|p.products| > 0 ==> row.products == Join(p.products, ProductSep))
    ensures r.result.Success? ==> r.result.value == (if lastId == Answers then db.nextPaintId else 0)
    ensures Valid(db) ==> Valid(r.db)
  {
    if insert == TimesOut then Saved(db, Failure(Timeout))
    else
      var id := db.nextPaintId;
      var a := p.address;
      var row := PaintRow(id, p.depot, p.latText, p.lonText, a.line1, a.line2, a.city,
                          a.province.value, p.phone, p.hours, ProductList(p.products));
      Saved(db.(paint := db.paint + [row], nextPaintId := id + 1), Success(if lastId == Answers then id else 0))
  }

  /** The faults a `GetPaintMerchants` call can meet. */
  datatype ReadFaults = ReadFaults(
    query: Call,             // the SELECT itself
    unreadable: set<nat>,    // storage positions of rows whose scan fails
    cursor: Call)            // `rows.Err()` after the last row

  /**
   The reply record for one paint row: the selected columns, `address_line_2`
   not among them; the integer id is scanned into the text field `ID`.
   */
  function MerchantOf(row: PaintRow): Location {
    BlankLocation.(id := FormatInt(row.id), store := row.store, lat := row.lat, lon := row.lon,
                   address := row.line1, city := row.city, state := row.province,
                   phone := row.phone, hours := row.hours, products := row.products)
  }

  /**
   A merchant's record shows its row's columns and nothing of the oil
   fields; its `ID` is the row's id written in decimal, so a non-negative id
   reads back from it and two records share an `ID` only when their rows
   share an id.
   */
  lemma MerchantOfRow(a: PaintRow, b: PaintRow)
    ensures var m := MerchantOf(a);
      && m.store == a.store && m.lat == a.lat && m.lon == a.lon && m.address == a.line1
      && m.city == a.city && m.state == a.province && m.phone == a.phone && m.hours == a.hours
      && m.products == a.products && m.myId == 0 && m.resultNumber == 0 && m.zip == ""
    ensures a.id >= 0 ==> IsDigits(MerchantOf(a).id) && DigitsValue(MerchantOf(a).id) == a.id
    ensures MerchantOf(a).id == MerchantOf(b).id ==> a.id == b.id
  {
  }

  /** Scans the rows from position `k` on, stopping at the first unreadable one. */
  function ScanFrom(rows: seq<PaintRow>, k: nat, unreadable: set<nat>): (r: Result<seq<PaintRow>, StoreError>)
    requires k <= |rows|
    ensures r.Success? <==> forall i :: k <= i < |rows| ==> i !in unreadable
    ensures r.Failure? ==> r.error == BadRow
    ensures r.Success? ==> r.value == rows[k..]
    decreases |rows| - k
  {
    if k == |rows| then Success([])
    else if k in unreadable then Failure(BadRow)
    else match ScanFrom(rows, k + 1, unreadable)
      case Failure(e) => Failure(e)
      case Success(rest) =>
        assert rows[k..] == [rows[k]] + rows[k + 1..];
        Success([rows[k]] + rest)
  }

  /** The reply records of the rows read, in order. */
  function Merchants(rows: seq<PaintRow>): (stores: seq<Location>)
    ensures |stores| == |rows|
    ensures forall i :: 0 <= i < |rows| ==> stores[i] == MerchantOf(rows[i])
  {
    seq(|rows|, i requires 0 <= i < |rows| => MerchantOf(rows[i]))
  }

  /** `GetPaintMerchants`: every paint row in storage order, or an error and no rows at all. */
  function GetPaintMerchants(db: Db, faults: ReadFaults): (r: Result<seq<Location>, StoreError>)
    ensures r.Success? <==> (&& faults.query == Answers && faults.cursor == Answers
                             && forall i :: 0 <= i < |db.paint| ==> i !in faults.unreadable)
    ensures r.Success? ==> (|r.value| == |db.paint|
                              && forall i :: 0 <= i < |db.paint| ==> r.value[i] == MerchantOf(db.paint[i]))
  {
    if faults.query == TimesOut then Failure(Timeout)
    else match ScanFrom(db.paint, 0, faults.unreadable)
      case Failure(e) => Failure(e)
      case Success(read) =>
        assert faults.query == Answers;
        assert read == db.paint;
        if faults.cursor == TimesOut then Failure(Timeout)
        else
          assert faults.cursor == Answers;
          Success(Merchants(read))
  }

  /**
   A merchant inserted successfully is listed last by the next clean read,
   after the earlier rows, with the id it was given as text and its fields
   in the record's columns: address line 1 as the address, the province's
   value as the state, the products joined.
   */
  lemma InsertThenListed(db: Db, p: PaintData, lastId: Call, unreadable: set<nat>)
    requires forall i :: 0 <= i <= |db.paint| ==> i !in unreadable
    ensures var s := InsertPaintDepot(db, p, Answers, lastId);
      var r := GetPaintMerchants(s.db, ReadFaults(Answers, unreadable, Answers));
      && r.Success? && |r.value| == |db.paint| + 1
      && r.value[..|db.paint|] == GetPaintMerchants(db, ReadFaults(Answers, unreadable, Answers)).value
      && r.value[|db.paint|] == BlankLocation.(
           id := FormatInt(db.nextPaintId), store := p.depot, lat := p.latText, lon := p.lonText,
           address := p.address.line1, city := p.address.city, state := p.address.province.value,
           phone := p.phone, hours := p.hours, products := ProductList(p.products))
  {
    var s := InsertPaintDepot(db, p, Answers, lastId);
    var r := GetPaintMerchants(s.db, ReadFaults(Answers, unreadable, Answers));
    var r0 := GetPaintMerchants(db, ReadFaults(Answers, unreadable, Answers));
    assert forall i :: 0 <= i < |db.paint| ==> s.db.paint[i] == db.paint[i];
    assert r.value[..|db.paint|] == r0.value;
  }
}

=== FILE: gostrings.dfy ===
/**
 Go's `strings` operations as the handlers use them, over `seq<char>`:
 `TrimSpace`, `ToLower`, `Index`, `Split`, `Join` and `ReplaceAll`.
 Whitespace and case are the ASCII ones; every separator is non-empty,
 as every separator in the handlers is a non-empty constant.
 */
module GoStrings {

  /** The ASCII whitespace `strings.TrimSpace` removes: space, \t, \n, \v, \f, \r. */
  predicate IsSpace(c: char) {
    c == ' ' || '\t' <= c <= '\r'
  }

  predicate AllSpace(s: string) {
    forall k :: 0 <= k < |s| ==> IsSpace(s[k])
  }

  /** No whitespace at either end. */
  predicate IsTrimmed(s: string) {
    |s| == 0 || (!IsSpace(s[0]) && !IsSpace(s[|s| - 1]))
  }

  function LowerChar(c: char): char {
    if 'A' <= c <= 'Z' then (c as int + 32) as char else c
  }

  /** `strings.ToLower`, and SQL `lower()`, restricted to ASCII letters. */
  function ToLower(s: string): (r: string)
    ensures |r| == |s|
    ensures forall k :: 0 <= k < |s| ==> r[k] == LowerChar(s[k])
  {
    seq(|s|, k requires 0 <= k < |s| => LowerChar(s[k]))
  }

  /** `c` and `d` are the same ASCII letter, one in upper case and the other in lower case. */
  predicate OtherCase(c: char, d: char) {
    || ('A' <= c <= 'Z' && d as int == c as int + 32)
    || ('A' <= d <= 'Z' && c as int == d as int + 32)
  }

  /** `a` and `b` agree character by character, except that a letter may differ in case. */
  predicate EqualUpToCase(a: string, b: string) {
    |a| == |b| && forall k :: 0 <= k < |a| ==> a[k] == b[k] || OtherCase(a[k], b[k])
  }

  /** Two texts lower-case to the same text exactly when they are equal up to the case of their letters. */
  lemma ToLowerEqualIff(a: string, b: string)
    ensures ToLower(a) == ToLower(b) <==> EqualUpToCase(a, b)
  {
  }

  /** Drops leading whitespace. */
  function TrimLeft(s: string): (r: string)
    ensures |r| <= |s| && r == s[|s| - |r|..]
    ensures AllSpace(s[..|s| - |r|])
    ensures |r| > 0 ==> !IsSpace(r[0])
    decreases |s|
  {
    if |s| > 0 && IsSpace(s[0]) then
      var r := TrimLeft(s[1..]);
      var front := s[..|s| - |r|];
      assert AllSpace(front) by {
        forall k | 0 <= k < |front| ensures IsSpace(front[k]) {
          if k > 0 { assert front[k] == s[1..][..|s| - 1 - |r|][k - 1]; }
        }
      }
      r
    else
      s
  }

  /** Drops trailing whitespace. */
  function TrimRight(s: string): (r: string)
    ensures |r| <= |s| && r == s[..|r|]
    ensures AllSpace(s[|r|..])
    ensures |r| > 0 ==> !IsSpace(r[|r| - 1])
    decreases |s|
  {
    if |s| > 0 && IsSpace(s[|s| - 1]) then
      var r := TrimRight(s[..|s| - 1]);
      var back := s[|r|..];
      assert AllSpace(back) by {
        forall k | 0 <= k < |back| ensures IsSpace(back[k]) {
          if k < |s| - 1 - |r| { assert back[k] == s[..|s| - 1][|r|..][k]; }
        }
      }
      r
    else
      s
  }

  /** `strings.TrimSpace`: `s` without its leading and trailing whitespace. */
  function TrimSpace(s: string): (r: string)
    ensures IsTrimmed(r)
    ensures exists i, j :: 0 <= i <= j <= |s| && r == s[i..j] && AllSpace(s[..i]) && AllSpace(s[j..])
  {
    var l := TrimLeft(s);
    var r := TrimRight(l);
    TrimBothEnds(s, l, r, |s| - |l|);
    r
  }

  /**
   A middle slice `r` of the suffix `l == s[i..]`, with only whitespace around
   it in `l`, is a slice of `s` with only whitespace around it.
   */
  lemma TrimBothEnds(s: string, l: string, r: string, i: int)
    requires 0 <= i <= |s| && l == s[i..] && AllSpace(s[..i])
    requires |r| <= |l| && r == l[..|r|] && AllSpace(l[|r|..])
    ensures exists i, j :: 0 <= i <= j <= |s| && r == s[i..j] && AllSpace(s[..i]) && AllSpace(s[j..])
  {
    var j := i + |r|;
    assert r == s[i..j] by {
      forall k | 0 <= k < |r| ensures r[k] == s[i..j][k] {
        assert r[k] == l[k];
      }
    }
    assert AllSpace(s[j..]) by {
      forall k | 0 <= k < |s| - j ensures IsSpace(s[j..][k]) {
        assert s[j..][k] == l[|r|..][k];
      }
    }
  }

  /** Whitespace in front of a string does not survive trimming. */
  lemma TrimSpaceAfterSpace(c: char, s: string)
    requires IsSpace(c)
    ensures TrimSpace([c] + s) == TrimSpace(s)
  {
    assert ([c] + s)[1..] == s;
  }

  /** `sep` occurs in `s` starting at position `i`. */
  predicate OccursAt(s: string, sep: string, i: int) {
    0 <= i && i + |sep| <= |s| && s[i..i + |sep|] == sep
  }

  /** `strings.Index`: the first position of `sep` in `s`, or -1. */
  function IndexOf(s: string, sep: string): (r: int)
    requires |sep| > 0
    ensures -1 <= r
    ensures r >= 0 ==> OccursAt(s, sep, r)
    ensures forall i :: OccursAt(s, sep, i) ==> 0 <= r <= i
    decreases |s|
  {
    if |s| < |sep| then -1
    else if s[..|sep|] == sep then 0
    else
      var k := IndexOf(s[1..], sep);
      OccursLater(s, sep);
      if k < 0 then -1
      else
        OccursShifted(s, sep, k);
        k + 1
  }

  /** When `s` does not start with `sep`, each occurrence in `s` is one in `s[1..]`, one place earlier. */
  lemma OccursLater(s: string, sep: string)
    requires 0 < |sep| <= |s| && s[..|sep|] != sep
    ensures forall i :: OccursAt(s, sep, i) ==> i > 0 && OccursAt(s[1..], sep, i - 1)
  {
    forall i | OccursAt(s, sep, i)
      ensures i > 0 && OccursAt(s[1..], sep, i - 1)
    {
      assert s[1..][i - 1..i - 1 + |sep|] == s[i..i + |sep|];
    }
  }

  /** An occurrence in `s[1..]` is one in `s`, one place later. */
  lemma OccursShifted(s: string, sep: string, k: int)
    requires |s| > 0 && OccursAt(s[1..], sep, k)
    ensures OccursAt(s, sep, k + 1)
  {
    assert s[1..][k..k + |sep|] == s[k + 1..k + 1 + |sep|];
  }

  /** `strings.Split` for a non-empty separator: the pieces of `s` between occurrences of `sep`. */
  function Split(s: string, sep: string): (parts: seq<string>)
    requires |sep| > 0
    ensures |parts| >= 1
    decreases |s|
  {
    var i := IndexOf(s, sep);
    if i < 0 then [s] else [s[..i]] + Split(s[i + |sep|..], sep)
  }

  /** `strings.Join`: the parts with `sep` between consecutive ones. */
  function Join(parts: seq<string>, sep: string): string
    decreases |parts|
  {
    if |parts| == 0 then ""
    else if |parts| == 1 then parts[0]
    else parts[0] + sep + Join(parts[1..], sep)
  }

  /** `strings.ReplaceAll` for a non-empty `pattern`: every occurrence, scanned left to right, replaced by `repl`. */
  function ReplaceAll(s: string, pattern: string, repl: string): string
    requires |pattern| > 0
    decreases |s|
  {
    var i := IndexOf(s, pattern);
    if i < 0 then s else s[..i] + repl + ReplaceAll(s[i + |pattern|..], pattern, repl)
  }

  /** An occurrence inside a prefix is an occurrence in the whole string, and conversely. */
  lemma OccursInPrefix(a: string, b: string, sep: string, i: int)
    requires 0 <= i && i + |sep| <= |a|
    ensures OccursAt(a + b, sep, i) <==> OccursAt(a, sep, i)
  {
    assert (a + b)[i..i + |sep|] == a[i..i + |sep|];
  }

  /** Joining the pieces of a split gives back the original string. */
  lemma {:induction false} JoinSplit(s: string, sep: string)
    requires |sep| > 0
    ensures Join(Split(s, sep), sep) == s
    decreases |s|
  {
    var i := IndexOf(s, sep);
    if i >= 0 {
      var rest := s[i + |sep|..];
      var tail := Split(rest, sep);
      JoinSplit(rest, sep);
      assert Split(s, sep) == [s[..i]] + tail;
      JoinCons(s[..i], tail, sep);
      SplitAround(s, i, i + |sep|);
    }
  }

  /** Joining a head onto a non-empty list puts one separator between them. */
  lemma JoinCons(h: string, tail: seq<string>, sep: string)
    requires |tail| >= 1
    ensures Join([h] + tail, sep) == h + sep + Join(tail, sep)
  {
    assert ([h] + tail)[1..] == tail;
  }

  /** A string is its prefix, a middle slice and its suffix, in order. */
  lemma SplitAround(s: string, i: int, j: int)
    requires 0 <= i <= j <= |s|
    ensures s == s[..i] + s[i..j] + s[j..]
  {
  }

  /** No piece of a split contains the separator. */
  lemma {:induction false} SplitPartsAvoidSep(s: string, sep: string)
    requires |sep| > 0
    ensures forall k :: 0 <= k < |Split(s, sep)| ==> IndexOf(Split(s, sep)[k], sep) < 0
    decreases |s|
  {
    var i := IndexOf(s, sep);
    if i >= 0 {
      var rest := s[i + |sep|..];
      SplitPartsAvoidSep(rest, sep);
      HeadAvoidsSep(s, sep);
      assert Split(s, sep) == [s[..i]] + Split(rest, sep);
    }
  }

  /** The text in front of the first separator holds no separator. */
  lemma HeadAvoidsSep(s: string, sep: string)
    requires |sep| > 0 && IndexOf(s, sep) >= 0
    ensures IndexOf(s[..IndexOf(s, sep)], sep) < 0
  {
    var i := IndexOf(s, sep);
    var head := s[..i];
    if IndexOf(head, sep) >= 0 {
      var j := IndexOf(head, sep);
      assert s == head + s[i..];
      OccursInPrefix(head, s[i..], sep, j);
      assert false;
    }
  }

  /**
   `p` followed by `sep` holds its first occurrence of `sep` exactly at the end:
   `p` contains no `sep`, and no `sep` straddles the border between them.
   */
  predicate SeparatesCleanly(p: string, sep: string)
    requires |sep| > 0
  {
    IndexOf(p + sep, sep) == |p|
  }

  /** A part that separates cleanly has no occurrence of the separator. */
  lemma CleanPartAvoidsSep(p: string, sep: string)
    requires |sep| > 0 && SeparatesCleanly(p, sep)
    ensures IndexOf(p, sep) < 0
  {
    if IndexOf(p, sep) >= 0 {
      OccursInPrefix(p, sep, sep, IndexOf(p, sep));
    }
  }

  /** A part that separates cleanly, then the separator, then anything: the first separator is the one after the part. */
  lemma FirstSeparatorAfter(p: string, rest: string, sep: string)
    requires |sep| > 0 && SeparatesCleanly(p, sep)
    ensures IndexOf(p + sep + rest, sep) == |p|
  {
    var j := p + sep + rest;
    assert j == (p + sep) + rest;
    OccursInPrefix(p + sep, rest, sep, |p|);
    var r := IndexOf(j, sep);
    assert 0 <= r <= |p|;
    if r < |p| {
      NoSeparatorInside(p, rest, sep, r);
    }
  }

  /** The part in front of the separator and the rest after it. */
  lemma AroundSeparator(p: string, rest: string, sep: string)
    ensures var j := p + sep + rest;
      |j| == |p| + |sep| + |rest| && j[..|p|] == p && j[|p| + |sep|..] == rest
  {
    var j := p + sep + rest;
    assert j[..|p|] == p;
    assert j[|p| + |sep|..] == rest;
  }

  /** No separator starts inside a part that separates cleanly, whatever follows the separator after it. */
  lemma NoSeparatorInside(p: string, rest: string, sep: string, i: int)
    requires |sep| > 0 && SeparatesCleanly(p, sep) && 0 <= i < |p|
    ensures !OccursAt(p + sep + rest, sep, i)
  {
    assert p + sep + rest == (p + sep) + rest;
    OccursInPrefix(p + sep, rest, sep, i);
  }

  /** Splitting a join gives back the parts, when every part separates cleanly. */
  lemma {:induction false} SplitJoin(parts: seq<string>, sep: string)
    requires |sep| > 0 && |parts| >= 1
    requires forall k :: 0 <= k < |parts| ==> SeparatesCleanly(parts[k], sep)
    ensures Split(Join(parts, sep), sep) == parts
    decreases |parts|
  {
    var p := parts[0];
    if |parts| == 1 {
      CleanPartAvoidsSep(p, sep);
    } else {
      var rest := Join(parts[1..], sep);
      FirstSeparatorAfter(p, rest, sep);
      AroundSeparator(p, rest, sep);
      SplitJoin(parts[1..], sep);
    }
  }

  /**
   Split keeps the empty field between two adjacent separators, and splits
   "" into one empty field.
   */
  lemma SplitKeepsEmptyField(a: string, b: string, sep: string)
    requires |sep| > 0 && SeparatesCleanly(a, sep) && SeparatesCleanly(b, sep)
    ensures Split(a + sep + sep + b, sep) == [a, "", b]
    ensures Split("", sep) == [""]
  {
    assert ("" + sep)[..|sep|] == sep;
    assert SeparatesCleanly("", sep);
    var parts := [a] + ([""] + [b]);
    JoinCons("", [b], sep);
    JoinCons(a, [""] + [b], sep);
    assert Join(parts, sep) == a + sep + ("" + sep + b);
    assert a + sep + sep + b == a + sep + ("" + sep + b);
    assert parts == [a, "", b];
    SplitJoin(parts, sep);
  }

  /** `ReplaceAll` agrees with Go's own reading of it: split on `pattern`, join with `repl`. */
  lemma {:induction false} ReplaceAllIsJoinOfSplit(s: string, pattern: string, repl: string)
    requires |pattern| > 0
    ensures ReplaceAll(s, pattern, repl) == Join(Split(s, pattern), repl)
    decreases |s|
  {
    var i := IndexOf(s, pattern);
    if i >= 0 {
      ReplaceAllIsJoinOfSplit(s[i + |pattern|..], pattern, repl);
      assert Split(s, pattern) == [s[..i]] + Split(s[i + |pattern|..], pattern);
    }
  }

  /** Appending one more part to a non-empty list adds one separator and the part. */
  lemma {:induction false} JoinSnoc(parts: seq<string>, x: string, sep: string)
    requires |parts| >= 1
    ensures Join(parts + [x], sep) == Join(parts, sep) + sep + x
    decreases |parts|
  {
    if |parts| > 1 {
      assert (parts + [x])[1..] == parts[1..] + [x];
      JoinSnoc(parts[1..], x, sep);
    }
  }
}

=== FILE: models.dfy ===
/** The records the handlers and the store exchange. */
module Models {
  import opened GoStrings

  /** A latitude/longitude pair, kept as the decimal text the upstream sent. */
  datatype Coordinate = Coordinate(lat: string, lon: string)

  /** The coordinate of a depot the geocoder could not place. */
  const NoCoordinate := Coordinate("", "")

  /** A row of the `depots` table: the oil depot cache. */
  datatype Depot = Depot(
    id: int,
    depotName: string,
    lat: string,
    lon: string,
    address: string,
    hours: string,
    products: string,
    terms: string,
    description: string)

  /** One location of a JSON reply (`DepotsJson`). */
  datatype Location = Location(
    address: string,
    description: string,
    store: string,
    id: string,         // `ID`, text in the reply
    myId: int,
    city: string,
    state: string,
    zip: string,
    lat: string,
    lon: string,
    terms: string,
    resultNumber: int,
    phone: string,
    hours: string,
    products: string)

  /** A location with every field at its zero value. */
  const BlankLocation := Location("", "", "", "", 0, "", "", "", "", "", "", 0, "", "", "")

  /** The reply envelope (`jsonData`). */
  datatype Envelope = Envelope(ok: bool, lat: string, lon: string, locations: seq<Location>)

  /** The envelope every failing request answers with. */
  const NotFoundEnvelope := Envelope(false, "", "", [])

  /** The separator between the products of a depot. */
  const ProductSep := ", "

  /** The display form of a product list: the products joined by ", ", or "" when there are none. */
  function ProductList(items: seq<string>): string {
    if |items| > 0 then Join(items, ProductSep) else ""
  }

  /** A product list is empty exactly when it lists nothing, given that no listed product is "". */
  lemma ProductListEmpty(items: seq<string>)
    requires forall k :: 0 <= k < |items| ==> items[k] != ""
    ensures ProductList(items) == "" <==> |items| == 0
  {
    if |items| > 0 {
      JoinStartsWithFirst(items, ProductSep);
    }
  }

  lemma JoinStartsWithFirst(items: seq<string>, sep: string)
    requires |items| > 0
    ensures |Join(items, sep)| >= |items[0]|
  {
  }

  /** A product without ", " in it separates cleanly from the ", " that follows it. */
  lemma ProductSeparatesCleanly(p: string)
    requires IndexOf(p, ProductSep) < 0
    ensures SeparatesCleanly(p, ProductSep)
  {
    var j := p + ProductSep;
    assert j[|p|..|p| + 2] == ProductSep;
    assert OccursAt(j, ProductSep, |p|);
    var r := IndexOf(j, ProductSep);
    assert 0 <= r <= |p| && OccursAt(j, ProductSep, r);
    if r < |p| {
      NoOccurrenceInProduct(p, r);
    }
  }

  /** No ", " starts inside a product without one, not even straddling the separator after it. */
  lemma NoOccurrenceInProduct(p: string, i: int)
    requires IndexOf(p, ProductSep) < 0 && 0 <= i < |p|
    ensures !OccursAt(p + ProductSep, ProductSep, i)
  {
    var j := p + ProductSep;
    if i + 2 <= |p| {
      OccursInPrefix(p, ProductSep, ProductSep, i);
      assert !OccursAt(p, ProductSep, i);
    } else {
      assert j[i..i + 2][1] == ',' && ProductSep[1] == ' ';
    }
  }

  /** The products of a list can be read back by splitting on ", ", when none contains ", ". */
  lemma ProductListRoundTrip(items: seq<string>)
    requires |items| > 0
    requires forall k :: 0 <= k < |items| ==> IndexOf(items[k], ProductSep) < 0
    ensures Split(ProductList(items), ProductSep) == items
  {
    forall k | 0 <= k < |items|
      ensures SeparatesCleanly(items[k], ProductSep)
    {
      ProductSeparatesCleanly(items[k]);
    }
    SplitJoin(items, ProductSep);
  }
}

=== FILE: oil.dfy ===
/**
 The listing loop of `GetOil`: for each scraped listing, reuse the depot
 cache or geocode the address and save the depot, and emit the listing's
 record numbered by its position on the page.
 */
module Oil {
  import opened Wrappers
  import opened GoStrings
  import opened Models
  import opened Database
  import opened Resolver
  import opened Scrape

  /** The outcomes of the outside calls made while handling one listing. */
  datatype ListingEnv = ListingEnv(
    lookup: Call,      // GetLatLonForOilDepot
    geocode: GeoBody,  // the geocoder's body for the listing's query
    insert: Call,      // the INSERT of SaveDepot
    lastId: Call)      // the LAST_INSERT_ID query of SaveDepot

  /** A scraped listing of the page together with the outcomes its calls meet. */
  datatype Item = Item(listing: RawListing, env: ListingEnv)

  /** One turn of the loop: a listing's derived fields and the outcomes its calls meet. */
  datatype Turn = Turn(listing: Listing, env: ListingEnv)

  /** An outside call the loop makes. */
  datatype Effect =
    | LookupDepot(name: string, address: string)
    | Geocode(query: string)
    | Save(depot: Depot)

  /** The coordinate the loop takes from the geocoder: the first result, or empty. */
  function GeocodedCoordinate(body: GeoBody): (c: Coordinate)
    ensures body.Parsed? && |body.results| > 0 ==> c == body.results[0]
    ensures body.Malformed? || |body.results| == 0 ==> c == NoCoordinate
  {
    match body
    case Malformed => NoCoordinate
    case Parsed(results) => if |results| > 0 then results[0] else NoCoordinate
  }

  /** The record emitted for listing `l` under `number`, with the id and coordinate the loop settled on. */
  function Record(l: Listing, found: CachedDepot, number: int): Location {
    BlankLocation.(myId := found.id, store := l.name, address := l.address, hours := l.hours,
                   products := l.products, lon := found.coord.lon, lat := found.coord.lat, resultNumber := number)
  }

  /** `rec` is listing `l`'s record under `number`: only its id and coordinate are left open. */
  predicate Describes(rec: Location, l: Listing, number: int) {
    rec == Record(l, CachedDepot(rec.myId, Coordinate(rec.lat, rec.lon)), number)
  }

  /** The depot saved for an uncached listing with coordinate `c`. */
  function ToSave(l: Listing, c: Coordinate): Depot {
    Depot(0, l.name, c.lat, c.lon, l.address, l.hours, l.products, "", "")
  }

  /** What a healthy cache lookup answers for the listing's identity. */
  function CacheAnswer(db: Db, l: Listing): Result<CachedDepot, StoreError> {
    GetLatLonForOilDepot(db, l.name, l.address, Answers)
  }

  /** The store, the id and coordinate settled on, and the calls made after one listing. */
  datatype Step = Step(db: Db, found: CachedDepot, trace: seq<Effect>)

  /**
   One turn of the loop. On a cache hit the cached id and coordinate are
   kept and only the lookup is made; on a miss (or a failed lookup) the
   geocoder is asked and the depot is saved, whatever the geocoder said,
   and the new row's id (0 when it is not known) goes with the geocoded
   coordinate.
   */
  function VisitListing(db: Db, t: Turn): (s: Step)
    ensures var l := t.listing;
      t.env.lookup == Answers && CacheAnswer(db, l).Success? ==>
        && s.db == db
        && s.trace == [LookupDepot(l.name, l.address)]
        && CacheAnswer(db, l) == Success(s.found)
    ensures var l := t.listing;
      var c := GeocodedCoordinate(t.env.geocode);
      !(t.env.lookup == Answers && CacheAnswer(db, l).Success?) ==>
        && s.trace == [LookupDepot(l.name, l.address), Geocode(l.query), Save(ToSave(l, c))]
        && s.db == SaveDepot(db, ToSave(l, c), t.env.insert, t.env.lastId).db
        && s.found == CachedDepot(if t.env.insert == Answers && t.env.lastId == Answers then db.nextDepotId else 0, c)
    ensures s.db.postal == db.postal && s.db.paint == db.paint && s.db.nextPaintId == db.nextPaintId
    ensures |db.depots| <= |s.db.depots| && s.db.depots[..|db.depots|] == db.depots
  {
    var l := t.listing;
    var lookup := LookupDepot(l.name, l.address);
    match GetLatLonForOilDepot(db, l.name, l.address, t.env.lookup)
    case Success(hit) =>
      assert t.env.lookup == Answers;
      Step(db, hit, [lookup])
    case Failure(_) =>
      var c := GeocodedCoordinate(t.env.geocode);
      var d := ToSave(l, c);
      var saved := SaveDepot(db, d, t.env.insert, t.env.lastId);
      assert t.env.insert == Answers ==> saved.result.Success?;
      Step(saved.db, CachedDepot(saved.result.GetOr(0), c), [lookup, Geocode(l.query), Save(d)])
  }

  /**
   The calls one listing makes: the cache lookup of its identity, then
   either nothing more, or its geocoding query followed by one save.
   */
  predicate ListingCalls(calls: seq<Effect>, l: Listing) {
    var lookup := LookupDepot(l.name, l.address);
    || calls == [lookup]
    || (|calls| == 3 && calls[0] == lookup && calls[1] == Geocode(l.query) && calls[2].Save?)
  }

  /** The store, what was settled on for each listing and the calls of each listing after the whole page. */
  datatype Pass = Pass(db: Db, found: seq<CachedDepot>, calls: seq<seq<Effect>>)

  /**
   The shape of the loop: `visit` applied to each of the first `n` turns in
   page order, each turn meeting the store the previous one left behind.
   */
  function Loop(visit: (Db, Turn) -> Step, db: Db, turns: seq<Turn>, n: nat): (p: Pass)
    requires n <= |turns|
    ensures |p.found| == n && |p.calls| == n
    decreases n
  {
    if n == 0 then Pass(db, [], [])
    else
      var p := Loop(visit, db, turns, n - 1);
      var s := visit(p.db, turns[n - 1]);
      Pass(s.db, p.found + [s.found], p.calls + [s.trace])
  }

  /** Going further through the page never changes what earlier turns settled on or called. */
  lemma {:induction false} LoopPrefix(visit: (Db, Turn) -> Step, db: Db, turns: seq<Turn>, m: nat, n: nat)
    requires m <= n <= |turns|
    ensures forall k :: 0 <= k < m ==> Loop(visit, db, turns, n).found[k] == Loop(visit, db, turns, m).found[k]
    ensures forall k :: 0 <= k < m ==> Loop(visit, db, turns, n).calls[k] == Loop(visit, db, turns, m).calls[k]
    decreases n
  {
    if m < n {
      LoopPrefix(visit, db, turns, m, n - 1);
    }
  }

  /** The listing loop over the first `n` listings of the page. */
  function VisitUpTo(db: Db, turns: seq<Turn>, n: nat): (p: Pass)
    requires n <= |turns|
    ensures |p.found| == n && |p.calls| == n
  {
    Loop(VisitListing, db, turns, n)
  }

  /** `db'` is `db` with depot rows appended and nothing else changed. */
  predicate OnlyDepotsGrow(db: Db, db': Db) {
    && db'.postal == db.postal && db'.paint == db.paint && db'.nextPaintId == db.nextPaintId
    && |db.depots| <= |db'.depots| && db'.depots[..|db.depots|] == db.depots
  }

  /** When every turn makes a listing's calls, so does every turn of the loop. */
  lemma {:induction false} LoopCalls(visit: (Db, Turn) -> Step, db: Db, turns: seq<Turn>, n: nat)
    requires n <= |turns|
    requires forall d: Db, t: Turn :: ListingCalls(visit(d, t).trace, t.listing)
    ensures forall k :: 0 <= k < n ==> ListingCalls(Loop(visit, db, turns, n).calls[k], turns[k].listing)
    decreases n
  {
    if n > 0 {
      LoopCalls(visit, db, turns, n - 1);
      var p := Loop(visit, db, turns, n - 1);
      assert Loop(visit, db, turns, n).calls == p.calls + [visit(p.db, turns[n - 1]).trace];
    }
  }

  /** When every turn only appends depot rows, so does the loop. */
  lemma {:induction false} LoopFrame(visit: (Db, Turn) -> Step, db: Db, turns: seq<Turn>, n: nat)
    requires n <= |turns|
    requires forall d: Db, t: Turn :: OnlyDepotsGrow(d, visit(d, t).db)
    ensures OnlyDepotsGrow(db, Loop(visit, db, turns, n).db)
    decreases n
  {
    if n > 0 {
      LoopFrame(visit, db, turns, n - 1);
      var p := Loop(visit, db, turns, n - 1);
      var d' := visit(p.db, turns[n - 1]).db;
      assert d'.depots[..|db.depots|] == p.db.depots[..|db.depots|];
    }
  }

  /** One turn makes its listing's calls and only appends depot rows. */
  lemma VisitListingShape(d: Db, t: Turn)
    ensures ListingCalls(VisitListing(d, t).trace, t.listing)
    ensures OnlyDepotsGrow(d, VisitListing(d, t).db)
  {
  }

  /**
   Each of the first `n` listings made its own calls, and the loop only
   appended depot rows, leaving the rest of the store as it was.
   */
  lemma VisitUpToCalls(db: Db, turns: seq<Turn>, n: nat)
    requires n <= |turns|
    ensures var p := VisitUpTo(db, turns, n);
      && (forall k :: 0 <= k < n ==> ListingCalls(p.calls[k], turns[k].listing))
      && p.db.postal == db.postal && p.db.paint == db.paint && p.db.nextPaintId == db.nextPaintId
      && |db.depots| <= |p.db.depots| && p.db.depots[..|db.depots|] == db.depots
  {
    forall d: Db, t: Turn
      ensures ListingCalls(VisitListing(d, t).trace, t.listing) && OnlyDepotsGrow(d, VisitListing(d, t).db)
    {
      VisitListingShape(d, t);
    }
    LoopCalls(VisitListing, db, turns, n);
    LoopFrame(VisitListing, db, turns, n);
  }

  /** The loop over the whole page. */
  function VisitAll(db: Db, turns: seq<Turn>): (p: Pass)
    ensures |p.found| == |turns| && |p.calls| == |turns|
    ensures forall k :: 0 <= k < |turns| ==> ListingCalls(p.calls[k], turns[k].listing)
    ensures p.db.postal == db.postal && p.db.paint == db.paint && p.db.nextPaintId == db.nextPaintId
    ensures |db.depots| <= |p.db.depots| && p.db.depots[..|db.depots|] == db.depots
  {
    VisitUpToCalls(db, turns, |turns|);
    VisitUpTo(db, turns, |turns|)
  }

  /** The records of the page: the listing at position `k` numbered `k + 1`. */
  function Records(turns: seq<Turn>, found: seq<CachedDepot>): (records: seq<Location>)
    requires |found| == |turns|
    ensures |records| == |turns|
    ensures forall k :: 0 <= k < |turns| ==>
      && Describes(records[k], turns[k].listing, k + 1)
      && records[k].myId == found[k].id && Coordinate(records[k].lat, records[k].lon) == found[k].coord
  {
    seq(|turns|, k requires 0 <= k < |turns| => Record(turns[k].listing, found[k], k + 1))
  }

  /** Each listing `found` covers is cached, and a healthy lookup answers what `found` holds for it. */
  predicate AllCached(db: Db, turns: seq<Turn>, found: seq<CachedDepot>)
    requires |found| <= |turns|
  {
    forall k :: 0 <= k < |found| ==> CacheAnswer(db, turns[k].listing) == Success(found[k])
  }

  /** Every lookup, insert and id query of the page answers. */
  predicate Healthy(turns: seq<Turn>) {
    forall k :: 0 <= k < |turns| ==>
      turns[k].env.lookup == Answers && turns[k].env.insert == Answers && turns[k].env.lastId == Answers
  }

  /** Appending rows never changes a hit of the cache. */
  lemma CacheStable(db: Db, db': Db, l: Listing)
    requires |db.depots| <= |db'.depots| && db'.depots[..|db.depots|] == db.depots
    requires CacheAnswer(db, l).Success?
    ensures CacheAnswer(db', l) == CacheAnswer(db, l)
  {
    assert db'.depots == db.depots + db'.depots[|db.depots|..];
    FindDepotStable(db.depots, db'.depots[|db.depots|..], l.name, l.address);
  }

  /** Two listings whose identities agree up to case meet the same cache answer. */
  lemma SameIdentitySameAnswer(db: Db, l: Listing, l': Listing)
    requires ToLower(l.name) == ToLower(l'.name) && ToLower(l.address) == ToLower(l'.address)
    ensures CacheAnswer(db, l') == CacheAnswer(db, l)
  {
    assert forall i :: 0 <= i < |db.depots| ==>
      (SameIdentity(db.depots[i], l.name, l.address) <==> SameIdentity(db.depots[i], l'.name, l'.address));
  }

  /**
   After a healthy pass over the first `n` listings each of them is cached
   under the id and coordinate the pass settled on for it: a hit keeps the
   row it found first, a miss leaves its new row as the first match.
   */
  lemma {:induction false} HealthyPassCaches(db: Db, turns: seq<Turn>, n: nat)
    requires Healthy(turns) && n <= |turns|
    ensures var p := VisitUpTo(db, turns, n); AllCached(p.db, turns, p.found)
    decreases n
  {
    if n > 0 {
      HealthyPassCaches(db, turns, n - 1);
      var p := VisitUpTo(db, turns, n - 1);
      var t := turns[n - 1];
      assert |p.found| == n - 1;
      assert t.env.lookup == Answers && t.env.insert == Answers && t.env.lastId == Answers;
      VisitKeepsCached(p.db, turns, p.found);
      var s := VisitListing(p.db, t);
      assert VisitUpTo(db, turns, n).db == s.db && VisitUpTo(db, turns, n).found == p.found + [s.found];
    }
  }

  /** A healthy turn keeps every earlier listing cached as it was and leaves its own listing cached. */
  lemma VisitKeepsCached(db: Db, turns: seq<Turn>, found: seq<CachedDepot>)
    requires |found| < |turns| && AllCached(db, turns, found)
    requires var e := turns[|found|].env; e.lookup == Answers && e.insert == Answers && e.lastId == Answers
    ensures var s := VisitListing(db, turns[|found|]); AllCached(s.db, turns, found + [s.found])
  {
    var s := VisitListing(db, turns[|found|]);
    StillCached(db, s.db, turns, found);
    VisitCachesItself(db, turns[|found|]);
    CachedSnoc(s.db, turns, found, s.found);
  }

  /** One more cached listing extends what is known to be cached. */
  lemma CachedSnoc(db: Db, turns: seq<Turn>, found: seq<CachedDepot>, f: CachedDepot)
    requires |found| < |turns| && AllCached(db, turns, found)
    requires CacheAnswer(db, turns[|found|].listing) == Success(f)
    ensures AllCached(db, turns, found + [f])
  {
    assert forall k :: 0 <= k < |found| ==> (found + [f])[k] == found[k];
  }

  /** Appending rows keeps every cached listing cached as it was. */
  lemma StillCached(db: Db, db': Db, turns: seq<Turn>, found: seq<CachedDepot>)
    requires |db.depots| <= |db'.depots| && db'.depots[..|db.depots|] == db.depots
    requires |found| <= |turns| && AllCached(db, turns, found)
    ensures AllCached(db', turns, found)
  {
    forall k | 0 <= k < |found|
      ensures CacheAnswer(db', turns[k].listing) == Success(found[k])
    {
      CacheStable(db, db', turns[k].listing);
    }
  }

  /** After a healthy turn its own listing is cached under what the turn settled on. */
  lemma VisitCachesItself(db: Db, t: Turn)
    requires t.env.lookup == Answers && t.env.insert == Answers && t.env.lastId == Answers
    ensures var s := VisitListing(db, t); CacheAnswer(s.db, t.listing) == Success(s.found)
  {
    var l := t.listing;
    if !CacheAnswer(db, l).Success? {
      SaveThenLookup(db, ToSave(l, GeocodedCoordinate(t.env.geocode)), l.name, l.address);
    }
  }

  /**
   The depot saved for an uncached listing holds what the listing's record
   shows, so once it is saved a later hit on the listing emits the very
   record the miss emitted under the new row's id.
   */
  lemma SavedDepotRecordsAgain(db: Db, l: Listing, c: Coordinate, n: int)
    requires CacheAnswer(db, l).Failure?
    ensures var rec := Record(l, CachedDepot(db.nextDepotId, c), n);
      var d := ToSave(l, c);
      && rec.store == d.depotName && rec.address == d.address && rec.hours == d.hours
      && rec.products == d.products && rec.lat == d.lat && rec.lon == d.lon
      && rec.myId == db.nextDepotId && rec.resultNumber == n
    ensures var s := SaveDepot(db, ToSave(l, c), Answers, Answers);
      && CacheAnswer(s.db, l).Success?
      && Record(l, CacheAnswer(s.db, l).value, n) == Record(l, CachedDepot(db.nextDepotId, c), n)
  {
  }

  /** Pass `p` over the first `|p.found|` listings left `db` alone, settled on what `found` holds and made only the lookups. */
  predicate AllHit(db: Db, turns: seq<Turn>, found: seq<CachedDepot>, p: Pass)
    requires |p.found| == |p.calls| <= |found| && |p.calls| <= |turns|
  {
    && p.db == db
    && forall k :: 0 <= k < |p.found| ==>
      p.found[k] == found[k] && p.calls[k] == [LookupDepot(turns[k].listing.name, turns[k].listing.address)]
  }

  /**
   A pass over listings that are all cached as `found` says, with every
   lookup answering, hits on every listing: it leaves the store alone,
   settles on what `found` holds and makes only the lookups.
   */
  lemma {:induction false} CachedPassHits(db: Db, turns: seq<Turn>, found: seq<CachedDepot>, n: nat)
    requires n <= |turns| == |found|
    requires forall k :: 0 <= k < |turns| ==> turns[k].env.lookup == Answers
    requires AllCached(db, turns, found)
    ensures AllHit(db, turns, found, VisitUpTo(db, turns, n))
    decreases n
  {
    if n > 0 {
      CachedPassHits(db, turns, found, n - 1);
      CachedListingHits(db, turns[n - 1], found[n - 1]);
      HitsExtend(VisitListing, db, turns, found, n);
    }
  }

  /** A listing whose lookup answers and whose identity is cached as `f` hits: it settles on `f` and makes only the lookup. */
  lemma CachedListingHits(db: Db, t: Turn, f: CachedDepot)
    requires t.env.lookup == Answers && CacheAnswer(db, t.listing) == Success(f)
    ensures VisitListing(db, t) == Step(db, f, [LookupDepot(t.listing.name, t.listing.address)])
  {
  }

  /** A pass that hit on the first `n - 1` listings, and hits on the next, hit on the first `n`. */
  lemma HitsExtend(visit: (Db, Turn) -> Step, db: Db, turns: seq<Turn>, found: seq<CachedDepot>, n: nat)
    requires 0 < n <= |turns| == |found|
    requires AllHit(db, turns, found, Loop(visit, db, turns, n - 1))
    requires visit(db, turns[n - 1]) == Step(db, found[n - 1], [LookupDepot(turns[n - 1].listing.name, turns[n - 1].listing.address)])
    ensures AllHit(db, turns, found, Loop(visit, db, turns, n))
  {
    var p := Loop(visit, db, turns, n - 1);
    var whole := Loop(visit, db, turns, n);
    assert forall k :: 0 <= k < n - 1 ==> whole.found[k] == p.found[k] && whole.calls[k] == p.calls[k];
  }

  /**
   Running the same page again on the store a healthy pass left behind
   hits the cache for every listing: nothing is geocoded or saved, the
   store stays as it is and every listing gets the same id and coordinate.
   */
  lemma PageRerunHitsCache(db: Db, turns: seq<Turn>, again: seq<Turn>)
    requires Healthy(turns)
    requires |again| == |turns|
    requires forall k :: 0 <= k < |turns| ==> again[k].listing == turns[k].listing && again[k].env.lookup == Answers
    ensures var first := VisitAll(db, turns);
      var second := VisitAll(first.db, again);
      && second.db == first.db && second.found == first.found
      && forall k :: 0 <= k < |again| ==> second.calls[k] == [LookupDepot(turns[k].listing.name, turns[k].listing.address)]
  {
    var first := VisitAll(db, turns);
    HealthyPassCaches(db, turns, |turns|);
    CachedPassHits(first.db, again, first.found, |again|);
    var second := VisitAll(first.db, again);
    assert second.found == first.found;
  }

  /** In pass `p`, listing `j` made only its lookup and settled on what listing `i` did. */
  predicate RepeatHit(turns: seq<Turn>, p: Pass, i: nat, j: nat)
    requires i < j < |p.found| == |p.calls| <= |turns|
  {
    p.calls[j] == [LookupDepot(turns[j].listing.name, turns[j].listing.address)] && p.found[j] == p.found[i]
  }

  /** `RepeatedListingHitsCache` for a repeat that is the last listing the pass reaches. */
  lemma LastRepeatHitsCache(db: Db, turns: seq<Turn>, i: nat, j: nat)
    requires Healthy(turns)
    requires i < j < |turns|
    requires ToLower(turns[i].listing.name) == ToLower(turns[j].listing.name)
    requires ToLower(turns[i].listing.address) == ToLower(turns[j].listing.address)
    ensures RepeatHit(turns, VisitUpTo(db, turns, j + 1), i, j)
  {
    HealthyPassCaches(db, turns, j);
    var q := VisitUpTo(db, turns, j);
    SameIdentitySameAnswer(q.db, turns[i].listing, turns[j].listing);
    var p := VisitUpTo(db, turns, j + 1);
    assert p.found == q.found + [q.found[i]];
  }

  /** A repeat hit seen by a pass that stopped after listing `j` is seen by any pass that agrees with it so far. */
  lemma RepeatHitCarries(turns: seq<Turn>, p: Pass, q: Pass, i: nat, j: nat)
    requires i < j < |q.found| == |q.calls| <= |p.found| == |p.calls| <= |turns|
    requires forall k :: 0 <= k < |q.found| ==> p.found[k] == q.found[k] && p.calls[k] == q.calls[k]
    requires RepeatHit(turns, q, i, j)
    ensures RepeatHit(turns, p, i, j)
  {
    assert p.found[i] == q.found[i] && p.found[j] == q.found[j] && p.calls[j] == q.calls[j];
  }

  /**
   In a healthy pass a listing repeating an earlier listing's identity (up
   to case) hits the row the earlier one left: it is not geocoded or saved
   again and gets the earlier one's id and coordinate.
   */
  lemma RepeatedListingHitsCache(db: Db, turns: seq<Turn>, i: nat, j: nat)
    requires Healthy(turns)
    requires i < j < |turns|
    requires ToLower(turns[i].listing.name) == ToLower(turns[j].listing.name)
    requires ToLower(turns[i].listing.address) == ToLower(turns[j].listing.address)
    ensures RepeatHit(turns, VisitAll(db, turns), i, j)
  {
    LastRepeatHitsCache(db, turns, i, j);
    LoopPrefix(VisitListing, db, turns, j + 1, |turns|);
    RepeatHitCarries(turns, Loop(VisitListing, db, turns, |turns|), Loop(VisitListing, db, turns, j + 1), i, j);
  }

  /** A listing's turn keeps the store well formed. */
  lemma VisitListingKeepsValid(db: Db, t: Turn)
    requires Valid(db)
    ensures Valid(VisitListing(db, t).db)
  {
    if !(t.env.lookup == Answers && CacheAnswer(db, t.listing).Success?) {
      SaveDepotKeepsValid(db, ToSave(t.listing, GeocodedCoordinate(t.env.geocode)), t.env.insert, t.env.lastId);
    }
  }

  /** The loop keeps the store well formed: ids stay positive, ascending and below the next one. */
  lemma {:induction false} VisitUpToKeepsValid(db: Db, turns: seq<Turn>, n: nat)
    requires Valid(db) && n <= |turns|
    ensures Valid(VisitUpTo(db, turns, n).db)
    decreases n
  {
    if n > 0 {
      VisitUpToKeepsValid(db, turns, n - 1);
      VisitListingKeepsValid(VisitUpTo(db, turns, n - 1).db, turns[n - 1]);
    }
  }

  /** The page's turns: each listing's derived fields beside the outcomes its calls meet. */
  function Prepare(items: seq<Item>): (turns: seq<Turn>)
    ensures |turns| == |items|
    ensures forall k :: 0 <= k < |items| ==> turns[k] == Turn(Derive(items[k].listing), items[k].env)
  {
    seq(|items|, k requires 0 <= k < |items| => Turn(Derive(items[k].listing), items[k].env))
  }

  /** What `GetOil` answers, the store it leaves behind and the calls of each listing. */
  datatype OilReply = OilReply(envelope: Envelope, db: Db, calls: seq<seq<Effect>>)

  /** `GetOil`, from the resolved search term on, over the listings of the page. */
  function GetOil(city: Option<string>, reply: GeoReply, db: Db, postal: Call, items: seq<Item>): (r: OilReply)
    ensures var res := GetLatLonForCityOrPostalCode(city, reply, db, postal);
      res.NotFound? ==> r == OilReply(NotFoundEnvelope, db, [])
    ensures var res := GetLatLonForCityOrPostalCode(city, reply, db, postal);
      res.Found? ==>
        && r.envelope.ok && r.envelope.lat == res.coord.lat && r.envelope.lon == res.coord.lon
        && |r.envelope.locations| == |items| && |r.calls| == |items|
        && (forall k :: 0 <= k < |items| ==> r.envelope.locations[k].resultNumber == k + 1)
        && (forall k :: 0 <= k < |items| ==> Describes(r.envelope.locations[k], Derive(items[k].listing), k + 1))
        && (forall k :: 0 <= k < |items| ==> ListingCalls(r.calls[k], Derive(items[k].listing)))
    ensures var res := GetLatLonForCityOrPostalCode(city, reply, db, postal);
      var p := VisitAll(db, Prepare(items));
      res.Found? ==>
        && r.db == p.db && r.calls == p.calls
        && (forall k :: 0 <= k < |items| ==>
              && r.envelope.locations[k].myId == p.found[k].id
              && Coordinate(r.envelope.locations[k].lat, r.envelope.locations[k].lon) == p.found[k].coord)
  {
    match GetLatLonForCityOrPostalCode(city, reply, db, postal)
    case NotFound => OilReply(NotFoundEnvelope, db, [])
    case Found(c, _) =>
      var turns := Prepare(items);
      var p := VisitAll(db, turns);
      OilReply(Envelope(true, c.lat, c.lon, Records(turns, p.found)), p.db, p.calls)
  }

  /** Every lookup, insert and id query of the page's listings answers. */
  predicate HealthyItems(items: seq<Item>) {
    forall k :: 0 <= k < |items| ==>
      items[k].env.lookup == Answers && items[k].env.insert == Answers && items[k].env.lastId == Answers
  }

  /**
   A second `GetOil` request for the same place and page, on the store a
   healthy first request left behind, answers the same envelope (the same
   ids and coordinates) while making only the depot lookups: nothing is
   geocoded or saved, and the store stays as it is.
   */
  lemma GetOilRerunHitsCache(city: Option<string>, reply: GeoReply, db: Db, postal: Call, items: seq<Item>, again: seq<Item>)
    requires GetLatLonForCityOrPostalCode(city, reply, db, postal).Found?
    requires HealthyItems(items)
    requires |again| == |items|
    requires forall k :: 0 <= k < |items| ==> again[k].listing == items[k].listing && again[k].env.lookup == Answers
    ensures var first := GetOil(city, reply, db, postal, items);
      var second := GetOil(city, reply, first.db, postal, again);
      && second.envelope == first.envelope && second.db == first.db
      && forall k :: 0 <= k < |items| ==>
           second.calls[k] == [LookupDepot(Derive(items[k].listing).name, Derive(items[k].listing).address)]
  {
    var turns := Prepare(items);
    var turns' := Prepare(again);
    PreparedRerun(items, again);
    PageRerunHitsCache(db, turns, turns');
    var first := VisitAll(db, turns);
    ResolutionReadsPostalOnly(city, reply, db, first.db, postal);
    GetOilOfPass(city, reply, db, postal, items);
    GetOilOfPass(city, reply, first.db, postal, again);
    RecordsOfListings(turns, turns', first.found);
  }

  /** The turns of a healthy page and of its rerun meet the premises of `PageRerunHitsCache`. */
  lemma PreparedRerun(items: seq<Item>, again: seq<Item>)
    requires HealthyItems(items)
    requires |again| == |items|
    requires forall k :: 0 <= k < |items| ==> again[k].listing == items[k].listing && again[k].env.lookup == Answers
    ensures Healthy(Prepare(items)) && |Prepare(again)| == |Prepare(items)|
    ensures forall k :: 0 <= k < |items| ==>
      && Prepare(again)[k].listing == Prepare(items)[k].listing == Derive(items[k].listing)
      && Prepare(again)[k].env.lookup == Answers
  {
  }

  /** On a resolved place, `GetOil` is the pass over the page's turns with its records. */
  lemma GetOilOfPass(city: Option<string>, reply: GeoReply, db: Db, postal: Call, items: seq<Item>)
    requires GetLatLonForCityOrPostalCode(city, reply, db, postal).Found?
    ensures var c := GetLatLonForCityOrPostalCode(city, reply, db, postal).coord;
      var p := VisitAll(db, Prepare(items));
      GetOil(city, reply, db, postal, items) == OilReply(Envelope(true, c.lat, c.lon, Records(Prepare(items), p.found)), p.db, p.calls)
  {
  }

  /** Records depend on the turns only through their listings. */
  lemma RecordsOfListings(turns: seq<Turn>, turns': seq<Turn>, found: seq<CachedDepot>)
    requires |turns| == |turns'| == |found|
    requires forall k :: 0 <= k < |turns| ==> turns'[k].listing == turns[k].listing
    ensures Records(turns', found) == Records(turns, found)
  {
  }

  /** Resolving a place reads only the postal table of the store. */
  lemma ResolutionReadsPostalOnly(city: Option<string>, reply: GeoReply, db: Db, db': Db, postal: Call)
    requires db'.postal == db.postal
    ensures GetLatLonForCityOrPostalCode(city, reply, db', postal) == GetLatLonForCityOrPostalCode(city, reply, db, postal)
  {
  }

  /** `GetOil` leaves a well-formed store well formed. */
  lemma GetOilKeepsValid(city: Option<string>, reply: GeoReply, db: Db, postal: Call, items: seq<Item>)
    requires Valid(db)
    ensures Valid(GetOil(city, reply, db, postal, items).db)
  {
    VisitUpToKeepsValid(db, Prepare(items), |items|);
  }
}

=== FILE: resolver.dfy ===
/**
 `getLatLonForCityOrPostalCode` and the `GetPaint` handler built on it:
 turning the `city` search term into a coordinate with the geocoder, and
 falling back to the postal-prefix table when the geocoder gives nothing.
 */
module Resolver {
  import opened Wrappers
  import opened Models
  import opened GoStrings
  import opened Database

  /** What the geocoder's body decodes to: a list of coordinates, or not JSON of that shape. */
  datatype GeoBody = Parsed(results: seq<Coordinate>) | Malformed

  /** The geocoder's answer: whether its body was read without error, and what it decodes to. */
  datatype GeoReply = GeoReply(bodyRead: bool, body: GeoBody)

  /** A resolved search: the coordinate and the search term it came from. */
  datatype Resolution = Found(coord: Coordinate, search: string) | NotFound

  /** The postal-table key is this many leading characters of the search term. */
  const PrefixLength := 3

  /** The geocoder placed the term: its body was read and decodes to a non-empty list. */
  predicate GeocoderHit(reply: GeoReply) {
    reply.bodyRead && reply.body.Parsed? && |reply.body.results| > 0
  }

  /** The geocoder's body decodes, but it did not place the term. */
  predicate NeedsFallback(reply: GeoReply) {
    reply.body.Parsed? && !GeocoderHit(reply)
  }

  /** The `city` parameter is present and not empty. */
  predicate HasTerm(city: Option<string>) {
    city.Some? && city.value != ""
  }

  /** Some postal row's prefix equals the term's first three characters up to case. */
  predicate PrefixKnown(db: Db, search: string) {
    |search| >= PrefixLength && exists i :: 0 <= i < |db.postal| && PrefixMatches(db.postal[i], search[..PrefixLength])
  }

  /**
   The postal fallback. A term shorter than the prefix length has no prefix
   to look up and resolves to nothing.
   */
  function PostalFallback(db: Db, search: string, postal: Call): (r: Resolution)
    ensures |search| < PrefixLength ==> r == NotFound
    ensures r.Found? <==> postal == Answers && PrefixKnown(db, search)
    ensures r.Found? ==> r.search == search
  {
    if |search| < PrefixLength then NotFound
    else match GetLatLonForPostalCode(db, search[..PrefixLength], postal)
      case Failure(_) => NotFound
      case Success(c) => Found(c, search)
  }

  /** `getLatLonForCityOrPostalCode`. */
  function GetLatLonForCityOrPostalCode(city: Option<string>, reply: GeoReply, db: Db, postal: Call): (r: Resolution)
    ensures r.Found? ==> HasTerm(city) && r.search == city.value && reply.body.Parsed?
    ensures !HasTerm(city) ==> r == NotFound
    ensures reply.body.Malformed? ==> r == NotFound
    ensures HasTerm(city) && GeocoderHit(reply) ==> r == Found(reply.body.results[0], city.value)
    ensures HasTerm(city) && NeedsFallback(reply) ==>
      (r.Found? <==> postal == Answers && PrefixKnown(db, city.value))
    ensures r.Found? && NeedsFallback(reply) ==>
      exists i :: 0 <= i < |db.postal| && PrefixMatches(db.postal[i], r.search[..PrefixLength])
        && (forall j :: 0 <= j < i ==> !PrefixMatches(db.postal[j], r.search[..PrefixLength]))
        && r.coord == db.postal[i].coord
  {
    if city.None? || city.value == "" then NotFound
    else
      var search := city.value;
      match reply.body
      case Malformed => NotFound
      case Parsed(results) =>
        if reply.bodyRead && |results| > 0 then Found(results[0], search)
        else PostalFallback(db, search, postal)
  }

  /** The postal fallback as written: slicing the first three characters of a shorter term is a run-time panic. */
  datatype FallbackOutcome = Resolved(resolution: Resolution) | SlicePanic

  /** The fallback as the handler writes it, slicing `search[0:3]` before any lookup. */
  function PostalFallbackAsWritten(db: Db, search: string, postal: Call): (o: FallbackOutcome)
    ensures o.SlicePanic? <==> |search| < PrefixLength
    ensures o.Resolved? ==> (o.resolution.Found? <==> postal == Answers && PrefixKnown(db, search))
  {
    if |search| < PrefixLength then SlicePanic else Resolved(PostalFallback(db, search, postal))
  }

  /**
   A two-character term the geocoder cannot place reaches the fallback and
   panics as written, where the corrected fallback answers NotFound.
   */
  lemma ShortTermPanicsAsWritten(db: Db)
    ensures HasTerm(Some("E1")) && NeedsFallback(GeoReply(true, Parsed([])))
    ensures PostalFallbackAsWritten(db, "E1", Answers) == SlicePanic
    ensures GetLatLonForCityOrPostalCode(Some("E1"), GeoReply(true, Parsed([])), db, Answers) == NotFound
  {
  }

  /** When the geocoder places the term, the postal table and its health play no part. */
  lemma GeocoderHitIgnoresPostalTable(city: Option<string>, reply: GeoReply, db1: Db, db2: Db, postal1: Call, postal2: Call)
    requires GeocoderHit(reply)
    ensures GetLatLonForCityOrPostalCode(city, reply, db1, postal1) == GetLatLonForCityOrPostalCode(city, reply, db2, postal2)
  {
  }

  /** An unreadable geocoder body ends the search without a postal fallback: no table makes it succeed. */
  lemma MalformedReplyIgnoresPostalTable(city: Option<string>, reply: GeoReply, db: Db, postal: Call)
    requires reply.body.Malformed?
    ensures GetLatLonForCityOrPostalCode(city, reply, db, postal) == NotFound
  {
  }

  /** A term the geocoder cannot place is found through the prefix table whatever the letter case. */
  lemma ScenarioPostalPrefix()
    ensures var db := Db([PostalRow("e1a", Coordinate("46.1", "-64.8"))], [], [], 1, 1);
      GetLatLonForCityOrPostalCode(Some("E1A"), GeoReply(true, Parsed([])), db, Answers)
        == Found(Coordinate("46.1", "-64.8"), "E1A")
  {
    var db := Db([PostalRow("e1a", Coordinate("46.1", "-64.8"))], [], [], 1, 1);
    assert "E1A"[..PrefixLength] == "E1A";
    assert ToLower("E1A") == "e1a";
    assert ToLower("e1a") == "e1a";
    assert PrefixMatches(db.postal[0], "E1A");
  }

  /**
   `GetPaint`: a missing or empty `action` fails before anything is resolved;
   `all` lists every paint merchant, any other action the merchants near the
   resolved coordinate (`near`, the outcome of that query).
   */
  function GetPaint(action: Option<string>, city: Option<string>, reply: GeoReply, db: Db, postal: Call,
                    faults: ReadFaults, near: Result<seq<Location>, StoreError>): (e: Envelope)
    ensures !e.ok ==> e == NotFoundEnvelope
    ensures (action.None? || action == Some("")) ==> e == NotFoundEnvelope
    ensures var res := GetLatLonForCityOrPostalCode(city, reply, db, postal);
      e.ok ==> res.Found? && e.lat == res.coord.lat && e.lon == res.coord.lon
    ensures var res := GetLatLonForCityOrPostalCode(city, reply, db, postal);
      action == Some("all") && res.Found? ==>
        && (e.ok <==> faults.query == Answers && faults.cursor == Answers
                      && forall i :: 0 <= i < |db.paint| ==> i !in faults.unreadable)
        && (e.ok ==> |e.locations| == |db.paint|
                     && forall i :: 0 <= i < |db.paint| ==> e.locations[i] == MerchantOf(db.paint[i]))
    ensures var res := GetLatLonForCityOrPostalCode(city, reply, db, postal);
      action.Some? && action.value != "" && action.value != "all" && res.Found? ==>
        (e.ok <==> near.Success?) && (e.ok ==> e.locations == near.value)
  {
    if action.None? || action.value == "" then NotFoundEnvelope
    else match GetLatLonForCityOrPostalCode(city, reply, db, postal)
      case NotFound => NotFoundEnvelope
      case Found(c, _) =>
        var depots := if action.value == "all" then GetPaintMerchants(db, faults) else near;
        match depots
        case Failure(_) => NotFoundEnvelope
        case Success(ds) => Envelope(true, c.lat, c.lon, ds)
  }
}

=== FILE: scrape.dfy ===
/**
 The fields `GetOil` derives from one scraped listing: the store name from
 the numbered `<b>` label, the products from the image titles, and the
 geocoding query from the address.
 */
module Scrape {
  import opened GoStrings
  import opened Models

  /** One `<li>` of the listing page, already reduced to its texts. */
  datatype RawListing = RawListing(
    numbered: string,       // text of the `<b>` element, e.g. "1. Main Depot"
    address: string,        // text of the `<a>` element
    hours: string,          // text of the `<small>` element
    titles: seq<string>)    // `title` of each `<img>`, "" where it has none

  /** The handlers' accumulation loop: `acc = acc + " " + t` for each token in turn. */
  function AppendEach(acc: string, tokens: seq<string>): string
    decreases |tokens|
  {
    if |tokens| == 0 then acc else AppendEach(acc + " " + tokens[0], tokens[1..])
  }

  /** The loop leaves the tokens joined by single spaces behind `acc` and one more space. */
  lemma {:induction false} AppendEachJoins(acc: string, tokens: seq<string>)
    ensures AppendEach(acc, tokens) == if |tokens| == 0 then acc else acc + " " + Join(tokens, " ")
    decreases |tokens|
  {
    if |tokens| > 1 {
      AppendEachJoins(acc + " " + tokens[0], tokens[1..]);
    }
  }

  /** The store name: every token of the label but the first, re-joined and trimmed. */
  function StoreName(numbered: string): string {
    var exploded := Split(numbered, " ");
    TrimSpace(AppendEach("", exploded[1..]))
  }

  /** A label without a space has no name after its number. */
  lemma StoreNameWithoutSpace(numbered: string)
    requires IndexOf(numbered, " ") < 0
    ensures Split(numbered, " ")[1..] == []
    ensures StoreName(numbered) == ""
  {
    assert Split(numbered, " ") == [numbered];
  }

  /** The tokens after the first are the split of the text after the first space. */
  lemma SplitTailAfterFirst(s: string)
    requires IndexOf(s, " ") >= 0
    ensures Split(s, " ")[1..] == Split(s[IndexOf(s, " ") + 1..], " ")
  {
    var i := IndexOf(s, " ");
    assert s[i + |" "|..] == s[i + 1..];
    assert Split(s, " ") == [s[..i]] + Split(s[i + 1..], " ");
  }

  /** Accumulating the tokens of a text gives the text behind one space. */
  lemma AppendEachOfSplit(rest: string)
    ensures AppendEach("", Split(rest, " ")) == [' '] + rest
  {
    AppendEachJoins("", Split(rest, " "));
    JoinSplit(rest, " ");
  }

  /** Tokens that split a text join back to it, and the loop accumulates them to the text behind one space. */
  lemma TokensOfText(tail: seq<string>, rest: string)
    requires tail == Split(rest, " ")
    ensures Join(tail, " ") == rest
    ensures AppendEach("", tail) == [' '] + rest
  {
    JoinSplit(rest, " ");
    AppendEachOfSplit(rest);
  }

  /** What the loop accumulates from a label with a space is the text after that space, behind one space. */
  lemma AccumulatedAfterSpace(numbered: string)
    requires IndexOf(numbered, " ") >= 0
    ensures Join(Split(numbered, " ")[1..], " ") == numbered[IndexOf(numbered, " ") + 1..]
    ensures AppendEach("", Split(numbered, " ")[1..]) == [' '] + numbered[IndexOf(numbered, " ") + 1..]
  {
    SplitTailAfterFirst(numbered);
    TokensOfText(Split(numbered, " ")[1..], numbered[IndexOf(numbered, " ") + 1..]);
  }

  /** Trimming what was accumulated behind a space trims the text itself. */
  lemma TrimmedBehindSpace(numbered: string, rest: string)
    requires AppendEach("", Split(numbered, " ")[1..]) == [' '] + rest
    ensures StoreName(numbered) == TrimSpace(rest)
  {
    TrimSpaceAfterSpace(' ', rest);
  }

  /** The store name is the trimmed text after the label's first space. */
  lemma StoreNameAfterSpace(numbered: string)
    requires IndexOf(numbered, " ") >= 0
    ensures Join(Split(numbered, " ")[1..], " ") == numbered[IndexOf(numbered, " ") + 1..]
    ensures StoreName(numbered) == TrimSpace(numbered[IndexOf(numbered, " ") + 1..])
  {
    var rest := numbered[IndexOf(numbered, " ") + 1..];
    AccumulatedAfterSpace(numbered);
    TrimmedBehindSpace(numbered, rest);
    assert StoreName(numbered) == TrimSpace(rest);
  }

  /**
   The store name is the label with its first space-separated token dropped,
   that is the trimmed text after the label's first space; a label without a
   space gives "".
   */
  lemma StoreNameDropsFirstToken(numbered: string)
    ensures StoreName(numbered) == TrimSpace(Join(Split(numbered, " ")[1..], " "))
    ensures IndexOf(numbered, " ") < 0 ==> StoreName(numbered) == ""
    ensures IndexOf(numbered, " ") >= 0 ==> StoreName(numbered) == TrimSpace(numbered[IndexOf(numbered, " ") + 1..])
  {
    if IndexOf(numbered, " ") < 0 {
      StoreNameWithoutSpace(numbered);
      assert Join([], " ") == "";
      assert TrimSpace("") == "";
    } else {
      StoreNameAfterSpace(numbered);
    }
  }

  /** The titles that are not "", in document order. */
  function NonEmptyTitles(titles: seq<string>): (items: seq<string>)
    ensures forall k :: 0 <= k < |items| ==> items[k] != ""
    ensures forall t :: t in items ==> t in titles
    ensures forall t :: t in titles && t != "" ==> t in items
    ensures multiset(items) == multiset(titles)["" := 0]
    decreases |titles|
  {
    if |titles| == 0 then []
    else
      assert titles == [titles[0]] + titles[1..];
      if titles[0] == "" then NonEmptyTitles(titles[1..])
    else [titles[0]] + NonEmptyTitles(titles[1..])
  }

  /** Keeping the non-empty titles commutes with concatenation, so document order is kept. */
  lemma {:induction false} NonEmptyTitlesAppend(a: seq<string>, b: seq<string>)
    ensures NonEmptyTitles(a + b) == NonEmptyTitles(a) + NonEmptyTitles(b)
    decreases |a|
  {
    if |a| == 0 {
      assert a + b == b;
    } else {
      assert (a + b)[0] == a[0];
      assert (a + b)[1..] == a[1..] + b;
      NonEmptyTitlesAppend(a[1..], b);
    }
  }

  /** The products of a listing. */
  function Products(titles: seq<string>): string {
    ProductList(NonEmptyTitles(titles))
  }

  /**
   The products are "" exactly when no title is non-empty; otherwise splitting
   them on ", " gives back the non-empty titles in order, provided no title
   contains ", ".
   */
  lemma ProductsReadBack(titles: seq<string>)
    ensures Products(titles) == "" <==> forall k :: 0 <= k < |titles| ==> titles[k] == ""
    ensures (forall k :: 0 <= k < |titles| ==> IndexOf(titles[k], ProductSep) < 0) && Products(titles) != "" ==>
      Split(Products(titles), ProductSep) == NonEmptyTitles(titles)
  {
    ProductsEmptyExactly(titles);
    if (forall k :: 0 <= k < |titles| ==> IndexOf(titles[k], ProductSep) < 0) && Products(titles) != "" {
      ProductsSplitBack(titles);
    }
  }

  /** The products string is empty exactly when every title is. */
  lemma ProductsEmptyExactly(titles: seq<string>)
    ensures Products(titles) == "" <==> forall k :: 0 <= k < |titles| ==> titles[k] == ""
  {
    var items := NonEmptyTitles(titles);
    ProductListEmpty(items);
    assert |items| > 0 ==> items[0] in items;
    if forall k :: 0 <= k < |titles| ==> titles[k] == "" {
      assert forall t :: t in items ==> t == "";
    } else {
      var k :| 0 <= k < |titles| && titles[k] != "";
      assert titles[k] in titles;
    }
  }

  /** With no title containing ", ", the products string splits back to the non-empty titles. */
  lemma ProductsSplitBack(titles: seq<string>)
    requires forall k :: 0 <= k < |titles| ==> IndexOf(titles[k], ProductSep) < 0
    requires Products(titles) != ""
    ensures Split(Products(titles), ProductSep) == NonEmptyTitles(titles)
  {
    var items := NonEmptyTitles(titles);
    forall k | 0 <= k < |items|
      ensures IndexOf(items[k], ProductSep) < 0
    {
      assert items[k] in items;
    }
    ProductListEmpty(items);
    ProductListRoundTrip(items);
  }

  /** The tokens the handlers split an address into before geocoding it. */
  function AddressTokens(address: string): seq<string> {
    Split(ReplaceAll(TrimSpace(address), ", ", " "), " ")
  }

  /** The geocoding query for an address: all its tokens but the last two, re-joined and trimmed. */
  function QueryAddress(address: string): string {
    var exploded := AddressTokens(address);
    var kept := if |exploded| > 2 then |exploded| - 2 else 0;
    TrimSpace(AppendEach("", exploded[..kept]))
  }

  /** Trimming the accumulated tokens is trimming their single-space join. */
  lemma TrimmedAppendEach(tokens: seq<string>)
    ensures TrimSpace(AppendEach("", tokens)) == TrimSpace(Join(tokens, " "))
  {
    AppendEachJoins("", tokens);
    if |tokens| > 0 {
      assert AppendEach("", tokens) == [' '] + Join(tokens, " ");
      TrimSpaceAfterSpace(' ', Join(tokens, " "));
    }
  }

  /** A text of more than two tokens is its front tokens, then the last two, all separated by spaces. */
  lemma LastTwoTokens(q: string)
    requires |Split(q, " ")| > 2
    ensures var ts := Split(q, " ");
      var n := |ts|;
      q == Join(ts[..n - 2], " ") + " " + ts[n - 2] + " " + ts[n - 1]
  {
    var ts := Split(q, " ");
    var n := |ts|;
    var front := ts[..n - 2];
    JoinSplit(q, " ");
    assert ts == front + [ts[n - 2]] + [ts[n - 1]];
    JoinSnoc(front, ts[n - 2], " ");
    JoinSnoc(front + [ts[n - 2]], ts[n - 1], " ");
  }

  /** A text of more than two tokens ends in two tokens that hold no space. */
  lemma LastTwoTokensSpaceFree(q: string)
    requires |Split(q, " ")| > 2
    ensures var ts := Split(q, " ");
      var n := |ts|;
      && q == Join(ts[..n - 2], " ") + " " + ts[n - 2] + " " + ts[n - 1]
      && IndexOf(ts[n - 2], " ") < 0 && IndexOf(ts[n - 1], " ") < 0
  {
    LastTwoTokens(q);
    SplitPartsAvoidSep(q, " ");
  }

  /** The address text the tokens come from is its front tokens and then its last two, which hold no space. */
  lemma AddressEndsInTwoTokens(address: string)
    ensures var ts := AddressTokens(address);
      var n := |ts|;
      n > 2 ==>
        && ReplaceAll(TrimSpace(address), ", ", " ") == Join(ts[..n - 2], " ") + " " + ts[n - 2] + " " + ts[n - 1]
        && IndexOf(ts[n - 2], " ") < 0 && IndexOf(ts[n - 1], " ") < 0
  {
    var q := ReplaceAll(TrimSpace(address), ", ", " ");
    assert AddressTokens(address) == Split(q, " ");
    if |Split(q, " ")| > 2 {
      LastTwoTokensSpaceFree(q);
    }
  }

  /** An address of more than two tokens is queried by its front tokens, joined and trimmed. */
  lemma QueryOfFrontTokens(address: string)
    ensures var ts := AddressTokens(address);
      |ts| > 2 ==> QueryAddress(address) == TrimSpace(Join(ts[..|ts| - 2], " "))
  {
    var ts := AddressTokens(address);
    if |ts| > 2 {
      TrimmedAppendEach(ts[..|ts| - 2]);
    }
  }

  /** An address of at most two tokens has an empty query. */
  lemma QueryOfFewTokens(address: string)
    requires |AddressTokens(address)| <= 2
    ensures QueryAddress(address) == ""
  {
    assert AddressTokens(address)[..0] == [];
    assert TrimSpace("") == "";
  }

  /**
   The query is the address text in front of its last two space-separated
   tokens (province and postal code, say), trimmed; an address of at most two
   tokens gives "".
   */
  lemma QueryAddressDropsLastTwo(address: string)
    ensures var ts := AddressTokens(address);
      |ts| <= 2 ==> QueryAddress(address) == ""
    ensures var ts := AddressTokens(address);
      var n := |ts|;
      n > 2 ==>
        && ReplaceAll(TrimSpace(address), ", ", " ") == Join(ts[..n - 2], " ") + " " + ts[n - 2] + " " + ts[n - 1]
        && IndexOf(ts[n - 2], " ") < 0 && IndexOf(ts[n - 1], " ") < 0
        && QueryAddress(address) == TrimSpace(Join(ts[..n - 2], " "))
  {
    if |AddressTokens(address)| > 2 {
      AddressEndsInTwoTokens(address);
      QueryOfFrontTokens(address);
    } else {
      QueryOfFewTokens(address);
    }
  }

  /** The fields the listing loop works with, derived once from the scraped texts. */
  datatype Listing = Listing(
    name: string,       // the cache identity's name and the record's `store`
    address: string,    // the cache identity's address and the record's `address`
    hours: string,
    products: string,
    query: string)      // what is sent to the geocoder on a cache miss

  /** The handlers' derivations for one listing, each from its own text. */
  function Derive(l: RawListing): Listing {
    Listing(StoreName(l.numbered), TrimSpace(l.address), TrimSpace(l.hours), Products(l.titles), QueryAddress(l.address))
  }

  /**
   What each derived field is: the name is the label without its first
   token, the address and hours are trimmed, the products are "" exactly
   when no title is non-empty, and the query is the address in front of its
   last two tokens ("" when it has at most two).
   */
  lemma DeriveFields(l: RawListing)
    ensures var d := Derive(l);
      && d.name == TrimSpace(Join(Split(l.numbered, " ")[1..], " "))
      && d.address == TrimSpace(l.address) && d.hours == TrimSpace(l.hours)
      && (d.products == "" <==> forall k :: 0 <= k < |l.titles| ==> l.titles[k] == "")
    ensures var ts := AddressTokens(l.address);
      var n := |ts|;
      Derive(l).query == if n <= 2 then "" else TrimSpace(Join(ts[..n - 2], " "))
  {
    StoreNameDropsFirstToken(l.numbered);
    ProductsReadBack(l.titles);
    QueryAddressDropsLastTwo(l.address);
  }
}

=== FILE: strconv.dfy ===
/**
 Go's `strconv.FormatInt(n, 10)`, the text `database/sql` stores when it
 scans an integer column into a string field.
 */
module Strconv {

  predicate IsDigit(c: char) {
    '0' <= c <= '9'
  }

  /** Every character is a decimal digit. */
  predicate IsDigits(s: string) {
    forall k :: 0 <= k < |s| ==> IsDigit(s[k])
  }

  /** The character of decimal digit `d`. */
  function DigitChar(d: int): (c: char)
    requires 0 <= d < 10
    ensures IsDigit(c) && c as int - '0' as int == d
  {
    ('0' as int + d) as char
  }

  /** The value of a string of decimal digits, most significant first. */
  function DigitsValue(s: string): nat
    requires IsDigits(s)
    decreases |s|
  {
    if |s| == 0 then 0 else DigitsValue(s[..|s| - 1]) * 10 + (s[|s| - 1] as int - '0' as int)
  }

  /** The decimal digits of `n`: at least one, and no leading zero. */
  function FormatNat(n: nat): (s: string)
    ensures |s| >= 1 && IsDigits(s)
    ensures s[0] == '0' ==> n == 0
    decreases n
  {
    if n < 10 then [DigitChar(n)] else FormatNat(n / 10) + [DigitChar(n % 10)]
  }

  /** Reading the digits back gives the number. */
  lemma {:induction false} FormatNatRoundTrip(n: nat)
    ensures DigitsValue(FormatNat(n)) == n
    decreases n
  {
    var s := FormatNat(n);
    if n < 10 {
      assert s[..0] == [];
    } else {
      FormatNatRoundTrip(n / 10);
      assert s[..|s| - 1] == FormatNat(n / 10);
    }
  }

  /**
   `strconv.FormatInt(n, 10)`: a minus sign for a negative number, then the
   digits of its magnitude, whose value is that magnitude.
   */
  function FormatInt(n: int): (s: string)
    ensures |s| >= 1
    ensures n >= 0 ==> IsDigits(s) && DigitsValue(s) == n && (s[0] == '0' ==> n == 0)
    ensures n < 0 ==> |s| >= 2 && s[0] == '-' && IsDigits(s[1..]) && DigitsValue(s[1..]) == -n && s[1] != '0'
  {
    if n < 0 then
      var d := FormatNat(-n);
      FormatNatRoundTrip(-n);
      assert ("-" + d)[1..] == d;
      "-" + d
    else
      FormatNatRoundTrip(n);
      FormatNat(n)
  }

  /** Different numbers have different texts. */
  lemma FormatIntInjective(m: int, n: int)
    requires FormatInt(m) == FormatInt(n)
    ensures m == n
  {
  }
}

=== FILE: wrappers.dfy ===
/** Failure-carrying datatypes shared by the whole model. */
module Wrappers {

  /** A value that may be absent. */
  datatype Option<+T> = None | Some(value: T)

  /** Either a value or the error that prevented computing it. */
  datatype Result<+T, +E> = Success(value: T) | Failure(error: E) {

    /** The carried value, or `default` on failure. */
    function GetOr(default: T): T {
      match this
      case Success(v) => v
      case Failure(_) => default
    }
  }
}
